=== FILE: README.md ===
# Oracle import/export: batching, statement building and file naming

This project models the pure logic inside a small pair of console tools. One
tool exports every Oracle table to a CSV file. The other loads CSV files back
into tables. The model covers:

- **Import batching** (`Batching`): `GroupList` cuts the rows read from a CSV file into consecutive chunks of the batch size.
- **Insert statement** (`InsertStatement`): the catalog rows become `TableColumn`s. From them the parameterised `INSERT INTO t ("A","B") VALUES (:A,:B)` text is built.
- **Chunk loop** (`ImportRun`): the CSV records are read lazily and cut into chunks, and each chunk runs in its own transaction. The database's verdict on a chunk is an opaque oracle `exec: nat -> Outcome`, indexed by chunk position. A chunk whose insert or commit throws is logged and skipped; it is never committed. A refused `BeginTransactionAsync` or an unreadable record throws outside the `try` and ends the import.
- **Export rendering** (`Export`): how one database value becomes a CSV cell. This includes the fixed `yyyy-MM-dd HH:mm:ss` format, the header-then-rows record layout, the encoding default, the `yyMMddHHmmss` backup directory and the `<table>.csv` file names.
- **Import front end** (`FrontEnd`): the table name derived from a file name, and `GetIntFromConsole`'s parse-or-default rule, as a pure function of the line read.
- **Support modules**:
  - `Text`: ordinal `EndsWith`, `string.Replace`, `string.Join` and a splitter.
  - `Decimal`: digit strings.
  - `Arith`: division facts.
  - `Paths`: `Path.Combine`, `Path.GetFileName`.
  - `Optional`: null-or-value.

The code does no per-column type coercion, no `TRUNCATE` before loading, no rollback bookkeeping or load summary, and no sequence realignment, so the model has none of these either. The rows handed to the database are the raw string dictionaries read from the file, and the fetched column type is never used.

Chunk outcomes, the console line, the clock reading and the catalog rows are parameters. The database, files, console and clock are not modelled.

A database NULL reaches `GetCells` as `DBNull.Value`, not as a null reference. The `value == null` branch therefore never fires for it. The value is written through its empty `ToString()` text instead, which in the CSV looks the same as a null field.

## Model

| member | source | states |
|---|---|---|
| Batching.GroupList | OracleImport/Utils/DapperImport.cs:65-83 | Laying the chunks end to end gives back the input, in order. No chunk is empty. For a positive size every chunk has at most `count` items, and every chunk but the last has exactly `count`. For `count <= 0` there is one chunk, or none for empty input. |
| Batching.GroupListCount | OracleImport/Utils/DapperImport.cs:67-82 | For `count >= 1` the number of chunks is ceil(N / count). |
| Batching.GroupListUnique | OracleImport/Utils/DapperImport.cs:65-83 | Any cut into non-empty chunks where all but the last are full (at most one chunk when `count <= 0`) is exactly `GroupList`'s result. |
| Batching.GroupListStream | OracleImport/Utils/DapperImport.cs:65-83 | The one-pass loop over a lazy enumeration hands out exactly `YieldedGroups`: a chunk each time `count` items are collected, then the non-empty remainder. An item that throws stops it at once and its position is reported. |
| Batching.YieldedGroups | OracleImport/Utils/DapperImport.cs:65-83 | With every record read, the chunks are `GroupList`'s. When a record throws, only full chunks were handed out: they lie at the head of the records read, and fewer than `count` read records are lost (all of them when `count <= 0`). |
| Batching.YieldedBeforeFailure | OracleImport/Utils/DapperImport.cs:94-102 | For a positive size, a record that cannot be read at position j leaves exactly j / count chunks, holding count * (j / count) records. |
| Batching.YieldedWithoutFailure | OracleImport/Utils/DapperImport.cs:112-113 | When every record is read, the chunks are `GroupList` of the records' values. |
| Text.JoinEnds | OracleImport/Utils/DapperImport.cs:14-15 | A join of at least one part starts with the first part and ends with the last. |
| Text.SplitJoin | OracleImport/Utils/DapperImport.cs:14-15 | `Join` with ',' is undone by splitting at ',' when no part contains a comma. |
| InsertStatement.ParseAssemble | OracleImport/Utils/DapperImport.cs:16 | `INSERT INTO ` + table + ` (` + cols + `) VALUES (` + params + `)` reads back into the table name, unquoted as given, and the two lists. |
| InsertStatement.InsertSql | OracleImport/Utils/DapperImport.cs:11-17 | The statement starts with "INSERT INTO", the table name and " (", and ends with ")". |
| InsertStatement.InsertSqlParses | OracleImport/Utils/DapperImport.cs:11-17 | The statement decomposes into the table name, then `"name"` per column in catalog order, then `:name` per column in the same order. Both lists have one entry per column. |
| InsertStatement.ToTableColumn | OracleImport/Utils/DapperImport.cs:54-60 | `null_able` holds exactly when NULLABLE is the text "Y". |
| InsertStatement.CatalogRoundTrip | OracleImport/Utils/DapperImport.cs:54-60 | Id, name and type are copied unchanged. A column read back from its catalog row is the same column. A row with a "Y"/"N" flag survives the trip back. |
| InsertStatement.FetchColumns | OracleImport/Utils/DapperImport.cs:52-62 | One column per catalog row, in the order the catalog query returned them. |
| ImportRun.ImportChunks | OracleImport/Utils/DapperImport.cs:115-129 | Chunks are attempted in order until a transaction is refused. A failed insert or commit does not stop the loop. The log has one event per attempted chunk: a commit exactly for the successful chunks, and a "Table t Import Error: msg" warning for the others. The table holds the rows of the successful chunks among them, in chunk order. The first refused chunk is reported. |
| ImportRun.WarningText | OracleImport/Utils/DapperImport.cs:126 | The warning starts with "Table" and the table name and ends with the exception's message. |
| ImportRun.FirstRefused | OracleImport/Utils/DapperImport.cs:115-117 | The first chunk whose transaction is refused: every earlier one was begun. |
| ImportRun.ImportAsWritten | OracleImport/Utils/DapperImport.cs:105-130 | The connection is never opened, so the first chunk's `BeginTransactionAsync` throws outside the `try`. Nothing is loaded and nothing is logged. The import ends with that refusal, or with the unreadable record or normally when no chunk is handed out. |
| ImportRun.Import | OracleImport/Utils/DapperImport.cs:105-130 | With the connection opened, the statement is built once from the fetched columns. The chunks are those handed out before a record fails to read. Commits and log are those of the chunk loop over them, warnings included. The import ends at the first refused transaction, else at the unreadable record, else normally. |
| ImportRun.LaterOutcomesIgnored | OracleImport/Utils/DapperImport.cs:115-117 | Nothing after the first refused transaction is attempted. Two oracles that agree up to that chunk stop at the same chunk and commit the same rows. |
| ImportRun.EarlierCommitsKept | OracleImport/Utils/DapperImport.cs:115-129 | Whatever later chunks do, the rows committed by the first k chunks stay at the head of the table. A failure never undoes an earlier commit. |
| ImportRun.SameOutcomesSameRows | OracleImport/Utils/DapperImport.cs:115-129 | The committed rows depend only on each chunk's own outcome. |
| ImportRun.AllSucceededLoadsAll | OracleImport/Utils/DapperImport.cs:115-129 | When every chunk succeeds, all chunk rows are committed in order. |
| ImportRun.AllFailedLoadsNothing | OracleImport/Utils/DapperImport.cs:115-129 | When every chunk fails, nothing is committed. |
| ImportRun.ImportLoadsAllRows | OracleImport/Utils/DapperImport.cs:112-129 | An import in which every record is read and every chunk commits attempts every chunk and loads exactly the file's rows, in file order. |
| Export.RenderCell | OracleBackup/Utils/DapperExport.cs:71-90 | A null reference gives a null cell, and only a null reference does. `DBNull` gives the empty text. Any other non-date value gives its own text unchanged. A `DateTime` gives a text of timestamp shape that parses back to the same instant. |
| Export.FormatTimestamp | OracleBackup/Utils/DapperExport.cs:83 | `yyyy-MM-dd HH:mm:ss` output is 19 characters. It has '-' at 4 and 7, a space at 10, ':' at 13 and 16, and digits everywhere else. |
| Export.ParseFormatTimestamp | OracleBackup/Utils/DapperExport.cs:83 | Parsing the formatted text gives back the instant. |
| Export.FormatParseTimestamp | OracleBackup/Utils/DapperExport.cs:83 | Formatting a parsed instant gives back the text, so the format is one-to-one. |
| Export.HeaderRecord | OracleBackup/Utils/DapperExport.cs:63-69 | One header field per field index, holding that field's name. |
| Export.RowRecord | OracleBackup/Utils/DapperExport.cs:71-90 | One cell per field index, holding the rendering of that field's value. |
| Export.WriteToCsv | OracleBackup/Utils/DapperExport.cs:92-118 | The output is the header record, then one record per row in reader order. Every record has as many fields as the header. Field i of data record r is the rendering of row r's value i. |
| Export.GetEncoding | OracleBackup/Utils/DapperExport.cs:16-20 | UTF-8 exactly when the setting is missing or empty. Otherwise the encoding named by the setting. |
| Export.Stamp | OracleBackup/Utils/DapperExport.cs:28 | The directory stamp is 12 digits, and its first two are the year modulo 100. |
| Export.StampFields | OracleBackup/Utils/DapperExport.cs:28 | Month, day, hour, minute and second each read back from their two digits of the stamp. |
| Export.BackupDir | OracleBackup/Utils/DapperExport.cs:28 | The backup directory is a sub-directory of the configured folder: the folder, one separator unless the folder already ends with one, then the 12-digit stamp. An empty folder gives the stamp alone. |
| Export.TableFilePath | OracleBackup/Utils/DapperExport.cs:59 | A table's file lies in the directory: the directory, one separator unless it already ends with one, then the table name plus ".csv". An empty directory gives the bare file name. |
| Export.TableFileName | OracleBackup/Utils/DapperExport.cs:59 | The file name of that path is the table name plus ".csv", whatever the directory. |
| Export.BackupFiles | OracleBackup/Utils/DapperExport.cs:36-41 | The output path of each table, in catalog order: directly in the backup directory, under the table name plus ".csv". |
| Export.BackupFileInFolder | OracleBackup/Utils/DapperExport.cs:28-41 | Every file of a backup starts with the configured folder and ends with the stamp, a separator and the table name plus ".csv". |
| Export.BackupFilesDistinct | OracleBackup/Utils/DapperExport.cs:36-41 | Distinct table names never share an output file. |
| Paths.Combine | OracleBackup/Utils/DapperExport.cs:59 | An empty first part or a rooted second part gives the second part; an empty second part gives the first. Otherwise the path is the first part, one separator unless the first already ends with one, then the second part. |
| Paths.GetFileName | OracleImport/Program.cs:32 | The file name holds no separator and is a suffix of the path. |
| Paths.FileNameFollowsSeparator | OracleImport/Program.cs:32 | The file name is the whole path or follows a separator, so it is the longest separator-free suffix. |
| Paths.CombinedFileName | OracleBackup/Utils/DapperExport.cs:59 | Combining any directory with a plain file name keeps that name as the path's file name. |
| Decimal.FixedWidth | OracleBackup/Utils/DapperExport.cs:83 | A fixed-width field has exactly w digits. Its value is the number modulo 10^w, so "yy" keeps the year modulo 100. |
| Decimal.FixedWidthOfNumber | OracleBackup/Utils/DapperExport.cs:83 | Every digit string is the fixed-width text of its own value. |
| FrontEnd.GetIntFromConsole | OracleImport/Program.cs:56-63 | A missing or empty line gives the default. |
| FrontEnd.ConsoleReadsDigits | OracleImport/Program.cs:56-63 | White space, an optional sign, a digit string and white space read as the signed value when it fits in 32 bits, and as the default otherwise. |
| FrontEnd.ParseInt32 | OracleImport/Program.cs:61 | Only a text holding a decimal digit can parse. |
| FrontEnd.ParsePadded | OracleImport/Program.cs:61 | White space, an optional '+' or '-', any non-empty digit string with or without leading zeros, and white space parse to the signed value when it fits in 32 bits, and to nothing otherwise. |
| FrontEnd.ParseRejectsStray | OracleImport/Program.cs:61 | A non-digit between two non-white characters (a sign counts only at the front) makes the text unparsable: "12abc", "1 2", "1-2", "--5". |
| FrontEnd.ConsoleReadsPadded | OracleImport/Program.cs:60-62 | A typed number with white space, a sign and leading zeros returns its value, or the default when the value does not fit in 32 bits. |
| FrontEnd.ConsoleStrayDefaults | OracleImport/Program.cs:60-62 | A line such as "12abc" or "1 2" gives the default. |
| Decimal.LeadingZeros | OracleImport/Program.cs:61 | Leading zeros do not change a digit string's value. |
| FrontEnd.ParseSignedDecimal | OracleImport/Program.cs:61 | The decimal text of a number parses exactly when the number fits in 32 bits, and then to that number. |
| FrontEnd.ConsoleReadsNumber | OracleImport/Program.cs:61 | A typed 32-bit integer is returned as itself, whatever the default. |
| FrontEnd.ConsoleOverflowDefaults | OracleImport/Program.cs:61-62 | A number outside the 32-bit range gives the default. |
| FrontEnd.ConsoleNoDigitDefaults | OracleImport/Program.cs:61-62 | A line without a decimal digit gives the default. |
| FrontEnd.TableNameAsWritten | OracleImport/Program.cs:32-37 | A name not ending in "_DATA_TABLE" is used unchanged, extension included. A marked name loses 11 characters per occurrence, so at least 11. |
| Text.ReplaceLeftmost | OracleImport/Program.cs:36 | The text before the leftmost occurrence is copied, that occurrence is replaced, and the scan resumes right after it. |
| FrontEnd.MarkedNameLeftmost | OracleImport/Program.cs:34-36 | For a marked name, the text before the leftmost "_DATA_TABLE" is kept, that occurrence is dropped, and the rest is treated the same way. |
| FrontEnd.MarkedNameStripped | OracleImport/Program.cs:34-36 | A table name followed by the marker, with no other occurrence, gives that table name. |
| Text.ReplaceLength | OracleImport/Program.cs:36 | `Replace` changes the length by the length difference times the number of non-overlapping occurrences. |
| Text.ReplaceBySelf | OracleImport/Program.cs:36 | Replacing a pattern by itself gives back the text unchanged. |
| Text.ReplaceAbsent | OracleImport/Program.cs:36 | A text without the pattern has no occurrence and comes back unchanged. |
| FrontEnd.CsvNameNeverStripped | OracleImport/Program.cs:28-37 | A name ending in ".csv", in any letter case, never has the marker stripped. |
| FrontEnd.ReimportNameAsWritten | OracleImport/Program.cs:32-37 | Re-importing an exported table's file targets the table name plus ".csv", not the table. |
| FrontEnd.InnerOccurrenceRemoved | OracleImport/Program.cs:34-36 | Inner occurrences are removed too: "A_DATA_TABLE_B_DATA_TABLE" gives "A_B". |
| FrontEnd.SuffixCanReappear | OracleImport/Program.cs:34-36 | After the removal the name can still contain "_DATA_TABLE": "_DATA" + "_DATA_TABLE" + "_TABLE" + "_DATA_TABLE" gives "_DATA_TABLE". |
| FrontEnd.ImportTableName | OracleImport/Program.cs:32-37 | Corrected rule: the derived table name is a prefix of the file name. |
| FrontEnd.ImportTableNameStripsMarker | OracleImport/Program.cs:32-37 | Corrected rule: "T_DATA_TABLE.csv" loads table T. |
| FrontEnd.ImportTableNameDropsExtension | OracleImport/Program.cs:32-37 | Corrected rule: "T.csv" loads table T when T has no marker. |
| FrontEnd.ImportTargets | OracleImport/Program.cs:28-37 | As written: one target table per file found, in visiting order, derived from the file name of each path by the rule as written. |
| FrontEnd.BackupReimportsAsWritten | OracleImport/Program.cs:28-37 | As written, the files of a backup target each table's name plus ".csv". |
| FrontEnd.CorrectedTargets | OracleImport/Program.cs:28-37 | Corrected rule: one target table per file found, in visiting order, by `ImportTableName`. |
| FrontEnd.BackupReimportsSameTables | OracleImport/Program.cs:28-37 | Under the corrected rule, the files of a backup import into exactly the tables they were exported from, in order. |

## Left out

- Oracle connections, transactions, Dapper calls and the catalog SQL (OracleImport/Utils/DapperImport.cs:35-52, 108-121). These are foreign calls. Each chunk's fate is the `exec` oracle. A failed chunk's transaction is only disposed; disposing without a commit discards its rows, so the model commits nothing for it.
- ImportRun.ImportAsWritten rests on two library behaviours that are not part of this model: Dapper's query opens a closed connection and closes it again, and `BeginTransactionAsync` throws on a closed connection. The exception's message is a parameter.
- CSV parsing (`ReadCsv`): a record is either read or throws, shown as `None`. Which records throw (a missing field, bad quoting) and the header read are not modelled.
- Execution inside a chunk. Dapper runs the statement once per row dictionary, and binding columns to dictionary keys happens inside the driver. Both belong to the oracle.
- CSV reading and writing, with quoting, delimiters and GBK/UTF-8 decoding (`ReadCsv`, CsvHelper). Only the record layout is modelled.
- The configured encoding reaches the file only through CsvHelper's configuration, while the bytes come from a `StreamWriter` opened with its own default. The effect on the bytes is not modelled.
- `BulkCopyImport.cs` and `ImportData`/`ReadCsv` in OracleImport/Program.cs:65-99. These are thin wrappers over the bulk-copy class and `DataTable.Load`.
- The console loops (OracleImport/Program.cs:15-53, OracleBackup/Program.cs:9-14).
- OracleImport/Program.cs:26 builds a tuple literal where `GetIntFromConsole` was evidently meant to be called. The helper is modelled on its own.
- OracleBackup/Program.cs:13 calls `TableToCsv` with one argument against a three-parameter signature.
- `GetTableNames` (a catalog query): the table list is a parameter.
- `DateTime.Now`, directory creation, async scheduling and the logging service. The clock reading is a parameter. The chunk loop's `log` is a record of events: a `Warned` event carries the warning text of DapperImport.cs:126, and a `Committed` event marks a commit, which the source does not log. The `LogService.Error(ex)` call (DapperImport.cs:127) writes the exception object and is not modelled.
- FrontEnd.ParseInt32 models `int.TryParse` with '-' and '+' as the signs and the six ASCII white-space characters. `int.TryParse` uses the current culture's sign symbols; the model assumes they are '-' and '+'. It does not model .NET's acceptance of trailing NUL characters.
- FrontEnd.GetIntFromConsole: the optional argument `def = 0` (OracleImport/Program.cs:56) is an explicit parameter. A call that omits it corresponds to `def` = 0. The prompt `msg` is console output and is left out.
- FrontEnd.TableNameAsWritten treats `EndsWith` as ordinal. The .NET overload used is culture-sensitive, which differs from ordinal only for unusual characters.
- Export.BackupDir takes the configured folder as a string. When "Backup:Folder" is unset, `GetSectionValue` returns null and `Path.Combine` at OracleBackup/Utils/DapperExport.cs:28 throws `ArgumentNullException`, ending the backup; the model does not represent that case.
- Export.Stamp assumes a Gregorian calendar in the thread's current culture, as Export.FormatTimestamp does. Under a culture with another calendar (Um Al-Qura, Thai Buddhist) `ToString("yyMMddHHmmss")` gives other year and month digits.
- Export.BackupFiles gives the path each table is written to. `BackupToCsv` has no `try`, so an exception from `TableToCsv` (a value the reader cannot convert, say) ends the loop and later tables get no file; that failure is not modelled.
- Export.FormatTimestamp assumes a culture whose time separator is ':' and whose calendar is Gregorian, in the thread's current culture. The CSV writer's zh-CN culture does not reach this `ToString` call. Fractions of a second are not represented, because the formats used never show them.
- Export.GetEncoding returns the configured name. It does not resolve that name to an encoding, and it does not model the exception .NET throws for unknown names.
- Export.BackupDir, Export.TableFilePath and Export.BackupFiles state where a file lies only for a separator that cannot start the stamp or the file name: not a digit, not one of the characters of ".csv", and not in the table name. The usual separators '\\' and '/' meet this.
- Paths.Combine models one directory separator, with rooted meaning "starts with it". It leaves out the alternate separator and drive-letter volumes.
- Export.RenderCell renders other values through the text their `ToString()` produces, which is carried by the `Scalar` case. Culture-dependent number formatting is not modelled.

## Findings

| source | as written | input that shows it | evidently intended | confidence | as-written member | corrected member |
|---|---|---|---|---|---|---|
| OracleImport/Program.cs:32-37 | The "_DATA_TABLE" test and the `Replace` run on the whole file name. For files found by the "*.csv" search the test can never fire, and the ".csv" extension stays in the table name. | "EMP_DATA_TABLE.csv" targets table "EMP_DATA_TABLE.csv". An exported "EMP.csv" targets "EMP.csv". | Drop the extension, then a trailing "_DATA_TABLE", so both files load table EMP. | medium; not executed | FrontEnd.ReimportNameAsWritten | FrontEnd.ImportTableName |
| OracleImport/Utils/DapperImport.cs:108-117 | The connection is created but never opened. The catalog query at :52 opens it and closes it again, so `BeginTransactionAsync` at :117 meets a closed connection and throws outside the `try`. | Any CSV file with at least one data record: the first chunk's transaction is refused, nothing is loaded and no warning is logged. | Open the connection before the loop, so each chunk is inserted and committed or logged and skipped. | medium; not executed | ImportRun.ImportAsWritten | ImportRun.Import |

=== FILE: arith.dfy ===
/** Facts about Euclidean division used by the digit and chunk-count proofs. */
module Arith {

  /** Quotient and remainder are determined by `n == d * q + r` with `0 <= r < d`. */
  lemma DivModUnique(n: int, d: int, q: int, r: int)
    requires d >= 1 && 0 <= r < d && n == d * q + r
    ensures n / d == q && n % d == r
  {
    var k := q - n / d;
    assert d * k == n % d - r;
    if k > 0 {
      MulAtLeast(d, k);
    } else if k < 0 {
      MulAtLeast(d, -k);
    }
  }

  lemma MulAtLeast(d: int, k: int)
    requires d >= 1 && k >= 1
    ensures d * k >= d
  {
  }
}

=== FILE: batching.dfy ===
/**
 Splitting the imported rows into the chunks that are loaded one transaction
 at a time (`GroupList` in DapperImport.cs).
 */
module Batching {
  import Arith
  import opened Optional

  /** The groups laid end to end. */
  function Flatten<T>(groups: seq<seq<T>>): seq<T>
    decreases |groups|
  {
    if |groups| == 0 then [] else groups[0] + Flatten(groups[1..])
  }

  lemma {:induction false} FlattenAppend<T>(a: seq<seq<T>>, b: seq<seq<T>>)
    ensures Flatten(a + b) == Flatten(a) + Flatten(b)
    decreases |a|
  {
    if |a| == 0 {
      assert a + b == b;
    } else {
      assert (a + b)[1..] == a[1..] + b;
      FlattenAppend(a[1..], b);
    }
  }

  /**
   The chunks of `items`, in order. A chunk is closed as soon as it holds `count`
   items; whatever is left at the end forms one last, shorter chunk. With
   `count <= 0` no chunk ever reaches `count`, so all items end up in one chunk.
   */
  function GroupList<T>(items: seq<T>, count: int): (groups: seq<seq<T>>)
    ensures Flatten(groups) == items
    ensures forall i :: 0 <= i < |groups| ==> |groups[i]| > 0
    ensures count >= 1 ==> forall i :: 0 <= i < |groups| ==> |groups[i]| <= count
    ensures count >= 1 ==> forall i :: 0 <= i < |groups| - 1 ==> |groups[i]| == count
    ensures count <= 0 ==> |groups| == (if |items| == 0 then 0 else 1)
    decreases |items|
  {
    if |items| == 0 then []
    else if count >= 1 && |items| > count then
      assert items == items[..count] + items[count..];
      [items[..count]] + GroupList(items[count..], count)
    else [items]
  }

  /** For a positive chunk size the number of chunks is the item count divided by the size, rounded up. */
  lemma {:induction false} GroupListCount<T>(items: seq<T>, count: int)
    requires count >= 1
    ensures |GroupList(items, count)| == (|items| + count - 1) / count
    decreases |items|
  {
    var n := |items|;
    if n == 0 {
      Arith.DivModUnique(count - 1, count, 0, count - 1);
    } else if n > count {
      var rest := items[count..];
      GroupListCount(rest, count);
      var k := |GroupList(rest, count)|;
      assert |GroupList(items, count)| == 1 + k;
      assert k == (n - 1) / count by {
        assert |rest| + count - 1 == n - 1;
      }
      DivShift(n + count - 1, count);
    } else {
      Arith.DivModUnique(n + count - 1, count, 1, n - 1);
    }
  }

  lemma DivShift(x: int, c: int)
    requires c >= 1 && x >= c
    ensures x / c == (x - c) / c + 1
  {
    Arith.DivModUnique(x, c, (x - c) / c + 1, (x - c) % c);
  }

  /**
   `GroupList` is the only way to cut `items` into non-empty chunks of which all
   but the last hold exactly `count` items (for `count <= 0`: at most one chunk).
   */
  lemma {:induction false} GroupListUnique<T>(items: seq<T>, count: int, groups: seq<seq<T>>)
    requires Flatten(groups) == items
    requires forall i :: 0 <= i < |groups| ==> |groups[i]| > 0
    requires count >= 1 ==> forall i :: 0 <= i < |groups| ==> |groups[i]| <= count
    requires count >= 1 ==> forall i :: 0 <= i < |groups| - 1 ==> |groups[i]| == count
    requires count <= 0 ==> |groups| <= 1
    ensures groups == GroupList(items, count)
    decreases |groups|
  {
    if |groups| == 0 {
    } else if |groups| == 1 {
      assert Flatten(groups) == groups[0] + Flatten(groups[1..]);
      assert items == groups[0];
    } else {
      var rest := groups[1..];
      assert Flatten(rest) == rest[0] + Flatten(rest[1..]);
      assert items == groups[0] + Flatten(rest);
      assert items[..count] == groups[0];
      assert items[count..] == Flatten(rest);
      GroupListUnique(items[count..], count, rest);
      assert groups == [groups[0]] + rest;
    }
  }

  /** Every group of `groups` holds exactly `count` items, so together they hold `count * |groups|`. */
  lemma {:induction false} FlattenUniform<T>(groups: seq<seq<T>>, count: int)
    requires forall i :: 0 <= i < |groups| ==> |groups[i]| == count
    ensures |Flatten(groups)| == count * |groups|
    decreases |groups|
  {
    if |groups| > 0 {
      FlattenUniform(groups[1..], count);
    }
  }

  /**
   The items of a lazy enumeration as the enumerator produces them: `None` stands
   for an item whose production throws (a CSV record that cannot be read), and the
   enumeration ends there. `FirstFailure` is the position of that item, or the
   length when every item is produced.
   */
  function FirstFailure<T>(items: seq<Option<T>>): (j: nat)
    ensures j <= |items|
    ensures forall i :: 0 <= i < j ==> items[i].Some?
    ensures j < |items| ==> items[j].None?
    decreases |items|
  {
    if |items| == 0 then 0
    else
      var last := |items| - 1;
      var j := FirstFailure(items[..last]);
      if j < last then j
      else if items[last].None? then last
      else |items|
  }

  /** The items produced before the enumeration throws. */
  function Delivered<T>(items: seq<Option<T>>): (values: seq<T>)
    ensures |values| == FirstFailure(items)
    ensures forall i :: 0 <= i < |values| ==> items[i] == Some(values[i])
  {
    var j := FirstFailure(items);
    seq(j, i requires 0 <= i < j => items[i].value)
  }

  /** The groups without a last group that never filled up. */
  function FullGroups<T>(groups: seq<seq<T>>, count: int): seq<seq<T>> {
    if |groups| > 0 && |groups[|groups| - 1]| != count then groups[..|groups| - 1] else groups
  }

  /**
   The groups `GroupList` hands out over a lazy enumeration. When every item is
   produced they are `GroupList`'s groups. When an item throws, the exception
   leaves `GroupList` while it is filling a group: only the groups that filled up
   before that were handed out, and the items after the last of them are lost.
   */
  function YieldedGroups<T>(items: seq<Option<T>>, count: int): (groups: seq<seq<T>>)
    ensures FirstFailure(items) == |items| ==> groups == GroupList(Delivered(items), count)
    ensures Flatten(groups) <= Delivered(items)
    ensures FirstFailure(items) < |items| ==> forall i :: 0 <= i < |groups| ==> |groups[i]| == count
    ensures FirstFailure(items) < |items| && count >= 1 ==> |Delivered(items)| - |Flatten(groups)| < count
    ensures FirstFailure(items) < |items| && count <= 0 ==> groups == []
  {
    var all := GroupList(Delivered(items), count);
    if FirstFailure(items) == |items| then all
    else
      FullGroupsPrefix(all, count);
      FullGroups(all, count)
  }

  lemma FullGroupsPrefix<T>(groups: seq<seq<T>>, count: int)
    ensures Flatten(FullGroups(groups, count)) <= Flatten(groups)
    ensures |Flatten(groups)| - |Flatten(FullGroups(groups, count))| == (if |groups| > 0 && |groups[|groups| - 1]| != count then |groups[|groups| - 1]| else 0)
  {
    if |groups| > 0 {
      var last := |groups| - 1;
      assert groups == groups[..last] + [groups[last]];
      FlattenAppend(groups[..last], [groups[last]]);
      assert Flatten([groups[last]]) == groups[last] + Flatten([groups[last]][1..]);
    }
  }

  /**
   With a positive size, an item that throws at position `j` leaves exactly the
   `j / count` groups that filled up before it. They hold `count * (j / count)`
   items, which `YieldedGroups` already places at the head of the items read.
   */
  lemma YieldedBeforeFailure<T>(items: seq<Option<T>>, count: int)
    requires count >= 1 && FirstFailure(items) < |items|
    ensures |YieldedGroups(items, count)| == FirstFailure(items) / count
    ensures |Flatten(YieldedGroups(items, count))| == count * (FirstFailure(items) / count)
  {
    var groups, delivered := YieldedGroups(items, count), Delivered(items);
    assert |delivered| == FirstFailure(items);
    assert forall i :: 0 <= i < |groups| ==> |groups[i]| == count;
    assert Flatten(groups) <= delivered && |delivered| - |Flatten(groups)| < count;
    FullGroupsCount(groups, delivered, count);
  }

  /** Full groups that cover all but fewer than `count` items of `items` are `|items| / count` of them. */
  lemma FullGroupsCount<T>(groups: seq<seq<T>>, items: seq<T>, count: int)
    requires count >= 1
    requires forall i :: 0 <= i < |groups| ==> |groups[i]| == count
    requires Flatten(groups) <= items && |items| - |Flatten(groups)| < count
    ensures |groups| == |items| / count
    ensures |Flatten(groups)| == count * (|items| / count)
  {
    var flat := Flatten(groups);
    FlattenUniform(groups, count);
    Arith.DivModUnique(|items|, count, |groups|, |items| - |flat|);
  }

  /** When every item is produced, the enumeration hands out `GroupList`'s groups of all of them. */
  lemma YieldedWithoutFailure<T>(items: seq<Option<T>>, values: seq<T>, count: int)
    requires |items| == |values| && forall i :: 0 <= i < |items| ==> items[i] == Some(values[i])
    ensures YieldedGroups(items, count) == GroupList(values, count)
  {
    assert FirstFailure(items) == |items|;
    assert Delivered(items) == values;
  }

  /**
   `GroupList`'s `foreach` run over the lazy record enumeration that
   `DapperImport.Import` passes it: a current group that is handed out when it
   reaches `count` items, and a final hand-out of a non-empty remainder. An item that throws ends the loop at once,
   and `failure` reports its position.
   */
  method GroupListStream<T>(items: seq<Option<T>>, count: int) returns (groups: seq<seq<T>>, failure: Option<nat>)
    ensures groups == YieldedGroups(items, count)
    ensures failure == (if FirstFailure(items) < |items| then Some(FirstFailure(items)) else None)
  {
    groups := [];
    var current: seq<T> := [];
    var i := 0;
    while i < |items| && items[i].Some?
      invariant 0 <= i <= FirstFailure(items)
      invariant Flatten(groups) + current == Delivered(items)[..i]
      invariant forall j :: 0 <= j < |groups| ==> |groups[j]| == count
      invariant count >= 1 ==> |current| < count
      invariant count <= 0 ==> groups == []
    {
      assert Delivered(items)[..i + 1] == Delivered(items)[..i] + [items[i].value];
      current := current + [items[i].value];
      if |current| == count {
        FlattenAppend(groups, [current]);
        assert Flatten([current]) == current + Flatten([current][1..]);
        groups := groups + [current];
        current := [];
      }
      i := i + 1;
    }
    assert i == FirstFailure(items);
    assert Delivered(items)[..i] == Delivered(items);
    StreamEnd(items, count, groups, current);
    if i == |items| && |current| > 0 {
      groups := groups + [current];
    }
    failure := if i < |items| then Some(i) else None;
  }

  /** Where the loop of `GroupListStream` stops: the groups handed out so far, plus a non-empty remainder if no item threw. */
  lemma StreamEnd<T>(items: seq<Option<T>>, count: int, groups: seq<seq<T>>, current: seq<T>)
    requires Flatten(groups) + current == Delivered(items)
    requires forall j :: 0 <= j < |groups| ==> |groups[j]| == count
    requires count >= 1 ==> |current| < count
    requires count <= 0 ==> groups == []
    ensures YieldedGroups(items, count) == (if FirstFailure(items) == |items| && |current| > 0 then groups + [current] else groups)
  {
    var all := GroupList(Delivered(items), count);
    if |current| > 0 {
      StreamEndPartial(Delivered(items), count, groups, current);
      assert all[..|groups|] == groups;
      assert FullGroups(all, count) == groups;
    } else {
      assert Flatten(groups) == Delivered(items);
      GroupListUnique(Delivered(items), count, groups);
      assert FullGroups(all, count) == groups;
    }
  }

  /** Full groups followed by a non-empty remainder are `GroupList`'s groups. */
  lemma StreamEndPartial<T>(items: seq<T>, count: int, groups: seq<seq<T>>, current: seq<T>)
    requires Flatten(groups) + current == items && |current| > 0
    requires forall j :: 0 <= j < |groups| ==> |groups[j]| == count
    requires count >= 1 ==> |current| < count
    requires count <= 0 ==> groups == []
    ensures GroupList(items, count) == groups + [current]
  {
    FlattenAppend(groups, [current]);
    assert Flatten([current]) == current + Flatten([current][1..]);
    GroupListUnique(items, count, groups + [current]);
  }
}

=== FILE: decimal.dfy ===
/**
 Decimal digit strings: the fixed-width fields of .NET's custom date-time
 format strings ("yyyy", "MM", "yy", ...) and the plain decimal text of an integer.
 */
module Decimal {
  import Arith

  predicate IsDigit(c: char) {
    '0' <= c <= '9'
  }

  predicate AllDigits(s: string) {
    forall i :: 0 <= i < |s| ==> IsDigit(s[i])
  }

  function DigitChar(d: nat): (c: char)
    requires d < 10
    ensures IsDigit(c)
  {
    ('0' as int + d) as char
  }

  function DigitValue(c: char): (d: nat)
    requires IsDigit(c)
    ensures d < 10 && DigitChar(d) == c
  {
    c as int - '0' as int
  }

  /** The number a digit string denotes, most significant digit first (leading zeros allowed). */
  function Number(s: string): nat
    requires AllDigits(s)
  {
    if |s| == 0 then 0 else Number(s[..|s| - 1]) * 10 + DigitValue(s[|s| - 1])
  }

  function Pow10(w: nat): (p: nat)
    ensures p >= 1
  {
    if w == 0 then 1 else 10 * Pow10(w - 1)
  }

  /**
   The last `w` decimal digits of `n`, zero-padded on the left: the custom-format
   fields "yyyy" (w = 4), "MM", "dd", "HH", "mm", "ss" (w = 2) and "yy", which keeps
   only the year modulo 100.
   */
  function FixedWidth(n: nat, w: nat): (s: string)
    ensures |s| == w
    ensures AllDigits(s)
    ensures Number(s) == n % Pow10(w)
  {
    if w == 0 then ""
    else
      var s := FixedWidth(n / 10, w - 1) + [DigitChar(n % 10)];
      assert s[..|s| - 1] == FixedWidth(n / 10, w - 1);
      ModShift(n, Pow10(w - 1));
      s
  }

  /** Dropping the last digit and re-attaching it commutes with taking a remainder. */
  lemma ModShift(n: nat, p: nat)
    requires p >= 1
    ensures (n / 10) % p * 10 + n % 10 == n % (10 * p)
  {
    var q, r := n / 10, n % 10;
    var a, b := q / p, q % p;
    assert n == 10 * p * a + (10 * b + r) by {
      assert n == 10 * q + r;
      assert q == p * a + b;
    }
    Arith.DivModUnique(n, 10 * p, a, 10 * b + r);
  }

  /** The shortest decimal text of `n`: no leading zero unless `n` is zero itself. */
  function ToDecimal(n: nat): (s: string)
    ensures |s| >= 1
    ensures AllDigits(s)
    ensures Number(s) == n
    ensures |s| > 1 ==> s[0] != '0'
  {
    if n < 10 then [DigitChar(n)]
    else
      var s := ToDecimal(n / 10) + [DigitChar(n % 10)];
      assert s[..|s| - 1] == ToDecimal(n / 10);
      s
  }

  /** A digit string is the fixed-width text of its own number. */
  lemma {:induction false} FixedWidthOfNumber(t: string)
    requires AllDigits(t)
    ensures FixedWidth(Number(t), |t|) == t
    decreases |t|
  {
    if |t| > 0 {
      var init := t[..|t| - 1];
      Arith.DivModUnique(Number(t), 10, Number(init), DigitValue(t[|t| - 1]));
      FixedWidthOfNumber(init);
      assert t == init + [t[|t| - 1]];
    }
  }

  /** Leading zeros do not change the number a digit string denotes. */
  lemma {:induction false} LeadingZeros(zeros: string, digits: string)
    requires forall i :: 0 <= i < |zeros| ==> zeros[i] == '0'
    requires AllDigits(digits)
    ensures AllDigits(zeros + digits)
    ensures Number(zeros + digits) == Number(digits)
    decreases |digits|
  {
    var s := zeros + digits;
    assert AllDigits(s) by {
      forall i | 0 <= i < |s| ensures IsDigit(s[i]) {
        if i >= |zeros| {
          assert s[i] == digits[i - |zeros|];
        }
      }
    }
    if |digits| == 0 {
      assert s == zeros;
      AllZeros(zeros);
    } else {
      var init := digits[..|digits| - 1];
      assert s[..|s| - 1] == zeros + init;
      LeadingZeros(zeros, init);
    }
  }

  /** A string of zeros denotes zero. */
  lemma {:induction false} AllZeros(zeros: string)
    requires forall i :: 0 <= i < |zeros| ==> zeros[i] == '0'
    ensures AllDigits(zeros) && Number(zeros) == 0
    decreases |zeros|
  {
    if |zeros| > 0 {
      AllZeros(zeros[..|zeros| - 1]);
    }
  }
}

=== FILE: export.dfy ===
/**
 The export side (DapperExport.cs): how one database value becomes a CSV cell,
 the record layout written for a table, the encoding choice, and the names of
 the backup directory and of each table's file.
 */
module Export {
  import opened Optional
  import opened Text
  import opened Decimal
  import opened Paths

  predicate IsLeapYear(y: int) {
    y % 4 == 0 && (y % 100 != 0 || y % 400 == 0)
  }

  function DaysInMonth(year: int, month: int): int
    requires 1 <= month <= 12
  {
    if month == 2 then (if IsLeapYear(year) then 29 else 28)
    else if month == 4 || month == 6 || month == 9 || month == 11 then 30
    else 31
  }

  /** A `System.DateTime` down to the second (the formats used here never show fractions). */
  datatype DateTime = DateTime(year: int, month: int, day: int, hour: int, minute: int, second: int)

  /** The range `System.DateTime` can represent, in the proleptic Gregorian calendar. */
  predicate ValidDateTime(d: DateTime) {
    && 1 <= d.year <= 9999
    && 1 <= d.month <= 12
    && 1 <= d.day <= DaysInMonth(d.year, d.month)
    && 0 <= d.hour < 24
    && 0 <= d.minute < 60
    && 0 <= d.second < 60
  }

  type Instant = d: DateTime | ValidDateTime(d) witness DateTime(1, 1, 1, 0, 0, 0)

  /**
   What `IDataReader.GetValue` hands back: a null reference, `DBNull.Value` (the
   driver's marker for SQL NULL), a `DateTime`, or any other object, represented
   by the text its `ToString()` produces.
   */
  datatype Value = NullRef | DbNull | Date(instant: Instant) | Scalar(text: string)

  /** Positions of the 19-character "yyyy-MM-dd HH:mm:ss" text that hold a separator rather than a digit. */
  predicate IsSeparatorPosition(i: int) {
    i == 4 || i == 7 || i == 10 || i == 13 || i == 16
  }

  /** The shape of "yyyy-MM-dd HH:mm:ss" output. */
  predicate IsTimestampShape(s: string) {
    && |s| == 19
    && s[4] == '-' && s[7] == '-' && s[10] == ' ' && s[13] == ':' && s[16] == ':'
    && forall i :: 0 <= i < 19 && !IsSeparatorPosition(i) ==> IsDigit(s[i])
  }

  /** `DateTime.ToString("yyyy-MM-dd HH:mm:ss")`, with ':' as the culture's time separator. */
  function FormatTimestamp(d: Instant): (s: string)
    ensures IsTimestampShape(s)
  {
    FixedWidth(d.year, 4) + "-" + FixedWidth(d.month, 2) + "-" + FixedWidth(d.day, 2) + " "
      + FixedWidth(d.hour, 2) + ":" + FixedWidth(d.minute, 2) + ":" + FixedWidth(d.second, 2)
  }

  /** Reads a "yyyy-MM-dd HH:mm:ss" text back; texts of another shape or naming no real instant give `None`. */
  function ParseTimestamp(s: string): (r: Option<Instant>)
    ensures r.Some? ==> IsTimestampShape(s)
  {
    if !IsTimestampShape(s) then None
    else
      assert AllDigits(s[0..4]) && AllDigits(s[5..7]) && AllDigits(s[8..10]);
      assert AllDigits(s[11..13]) && AllDigits(s[14..16]) && AllDigits(s[17..19]);
      var d := DateTime(Number(s[0..4]), Number(s[5..7]), Number(s[8..10]),
                        Number(s[11..13]), Number(s[14..16]), Number(s[17..19]));
      if ValidDateTime(d) then Some(d) else None
  }

  /** Each fixed-width field reads back as its value. */
  lemma FieldValue(n: nat, w: nat)
    requires n < Pow10(w)
    ensures Number(FixedWidth(n, w)) == n
  {
  }

  /** Formatting then parsing gives the instant back. */
  lemma {:induction false} ParseFormatTimestamp(d: Instant)
    ensures ParseTimestamp(FormatTimestamp(d)) == Some(d)
  {
    var s := FormatTimestamp(d);
    assert s[0..4] == FixedWidth(d.year, 4);
    assert s[5..7] == FixedWidth(d.month, 2);
    assert s[8..10] == FixedWidth(d.day, 2);
    assert s[11..13] == FixedWidth(d.hour, 2);
    assert s[14..16] == FixedWidth(d.minute, 2);
    assert s[17..19] == FixedWidth(d.second, 2);
    FieldValue(d.year, 4);
    FieldValue(d.month, 2);
    FieldValue(d.day, 2);
    FieldValue(d.hour, 2);
    FieldValue(d.minute, 2);
    FieldValue(d.second, 2);
  }

  /** A text of timestamp shape is its six digit fields with the separators between them. */
  lemma TimestampFields(s: string)
    requires IsTimestampShape(s)
    ensures s == s[0..4] + "-" + s[5..7] + "-" + s[8..10] + " " + s[11..13] + ":" + s[14..16] + ":" + s[17..19]
  {
    var t := s[0..4] + "-" + s[5..7] + "-" + s[8..10] + " " + s[11..13] + ":" + s[14..16] + ":" + s[17..19];
    assert |t| == 19;
    forall i | 0 <= i < 19
      ensures t[i] == s[i]
    {
    }
  }

  /** Parsing then formatting gives the text back: the format is one-to-one onto the texts that parse. */
  lemma {:induction false} FormatParseTimestamp(s: string)
    requires ParseTimestamp(s).Some?
    ensures FormatTimestamp(ParseTimestamp(s).value) == s
  {
    var d := ParseTimestamp(s).value;
    assert AllDigits(s[0..4]) && AllDigits(s[5..7]) && AllDigits(s[8..10]);
    assert AllDigits(s[11..13]) && AllDigits(s[14..16]) && AllDigits(s[17..19]);
    assert d == DateTime(Number(s[0..4]), Number(s[5..7]), Number(s[8..10]),
                         Number(s[11..13]), Number(s[14..16]), Number(s[17..19]));
    FixedWidthOfNumber(s[0..4]);
    FixedWidthOfNumber(s[5..7]);
    FixedWidthOfNumber(s[8..10]);
    FixedWidthOfNumber(s[11..13]);
    FixedWidthOfNumber(s[14..16]);
    FixedWidthOfNumber(s[17..19]);
    TimestampFields(s);
  }

  /**
   One cell of a data record: a null reference stays null, a `DateTime` is
   written in the fixed timestamp format, anything else (including `DBNull`,
   whose text is empty) as its own text.
   */
  function RenderCell(v: Value): (cell: Option<string>)
    ensures cell.None? <==> v.NullRef?
    ensures v.DbNull? ==> cell == Some("")
    ensures v.Scalar? ==> cell == Some(v.text)
    ensures v.Date? ==> cell.Some? && IsTimestampShape(cell.value) && ParseTimestamp(cell.value) == Some(v.instant)
  {
    match v
    case NullRef => None
    case DbNull => Some("")
    case Date(d) =>
      ParseFormatTimestamp(d);
      Some(FormatTimestamp(d))
    case Scalar(text) => Some(text)
  }

  /** An open data reader over `SELECT * FROM table`: the field names and the rows, each holding one value per field. */
  datatype ResultSet = ResultSet(names: seq<string>, rows: seq<seq<Value>>)

  predicate Rectangular(rs: ResultSet) {
    forall r :: 0 <= r < |rs.rows| ==> |rs.rows[r]| == |rs.names|
  }

  /** A CSV record: one field per column; a `None` field is written as a null field. */
  type Record = seq<Option<string>>

  /** `GetColumns`: the field names, one per field index. */
  function HeaderRecord(names: seq<string>): (rec: Record)
    ensures |rec| == |names|
    ensures forall i :: 0 <= i < |names| ==> rec[i] == Some(names[i])
  {
    seq(|names|, i requires 0 <= i < |names| => Some(names[i]))
  }

  /** `GetCells`: the rendered values of the current row, one per field index. */
  function RowRecord(row: seq<Value>): (rec: Record)
    ensures |rec| == |row|
    ensures forall i :: 0 <= i < |row| ==> rec[i] == RenderCell(row[i])
  {
    seq(|row|, i requires 0 <= i < |row| => RenderCell(row[i]))
  }

  /**
   `WriteToCsv`: the header record first, then one record per row in the
   reader's order; every record has as many fields as the header.
   */
  method WriteToCsv(rs: ResultSet) returns (records: seq<Record>)
    requires Rectangular(rs)
    ensures |records| == |rs.rows| + 1
    ensures records[0] == HeaderRecord(rs.names)
    ensures forall r :: 0 <= r < |records| ==> |records[r]| == |rs.names|
    ensures forall r, i :: 0 <= r < |rs.rows| && 0 <= i < |rs.names| ==> records[r + 1][i] == RenderCell(rs.rows[r][i])
  {
    records := [HeaderRecord(rs.names)];
    var r := 0;
    while r < |rs.rows|
      invariant 0 <= r <= |rs.rows|
      invariant |records| == r + 1
      invariant records[0] == HeaderRecord(rs.names)
      invariant forall k :: 0 <= k < |records| ==> |records[k]| == |rs.names|
      invariant forall k :: 0 <= k < r ==> records[k + 1] == RowRecord(rs.rows[k])
    {
      records := records + [RowRecord(rs.rows[r])];
      r := r + 1;
    }
  }

  /** The text encodings the writer can be configured with. */
  datatype EncodingChoice = Utf8 | Named(name: string)

  /** `GetEncoding`: UTF-8 when `Backup:Encoding` is missing or empty, otherwise the encoding of that name. */
  function GetEncoding(configured: Option<string>): (e: EncodingChoice)
    ensures e.Utf8? <==> configured == None || configured == Some("")
    ensures e.Named? ==> configured == Some(e.name)
  {
    match configured
    case None => Utf8
    case Some(name) => if name == "" then Utf8 else Named(name)
  }

  /** `DateTime.ToString("yyMMddHHmmss")`: two digits each for the year modulo 100, month, day, hour, minute and second. */
  function Stamp(d: Instant): (s: string)
    ensures |s| == 12 && AllDigits(s)
    ensures Number(s[0..2]) == d.year % 100
  {
    var s := FixedWidth(d.year, 2) + FixedWidth(d.month, 2) + FixedWidth(d.day, 2)
      + FixedWidth(d.hour, 2) + FixedWidth(d.minute, 2) + FixedWidth(d.second, 2);
    assert s[0..2] == FixedWidth(d.year, 2);
    s
  }

  /** Every field after the year reads back from its two positions of the stamp. */
  lemma StampFields(d: Instant)
    ensures Number(Stamp(d)[2..4]) == d.month && Number(Stamp(d)[4..6]) == d.day
    ensures Number(Stamp(d)[6..8]) == d.hour && Number(Stamp(d)[8..10]) == d.minute
    ensures Number(Stamp(d)[10..12]) == d.second
  {
    var s := Stamp(d);
    assert s[2..4] == FixedWidth(d.month, 2);
    assert s[4..6] == FixedWidth(d.day, 2);
    assert s[6..8] == FixedWidth(d.hour, 2);
    assert s[8..10] == FixedWidth(d.minute, 2);
    assert s[10..12] == FixedWidth(d.second, 2);
    FieldValue(d.month, 2);
    FieldValue(d.day, 2);
    FieldValue(d.hour, 2);
    FieldValue(d.minute, 2);
    FieldValue(d.second, 2);
  }

  /** The backup directory: the configured folder combined with the stamp of the moment the backup starts. */
  function BackupDir(folder: string, now: Instant, sep: char): (dir: string)
    ensures EndsWith(dir, Stamp(now))
    ensures folder == "" ==> dir == Stamp(now)
    ensures folder != "" && !IsDigit(sep) ==> InDirectory(dir, folder, Stamp(now), sep)
  {
    assert !IsDigit(sep) ==> !IsRooted(Stamp(now), sep);
    Combine(folder, Stamp(now), sep)
  }

  /** The file a table is exported to: `dir` combined with the table name plus ".csv". */
  function TableFilePath(dir: string, tableName: string, sep: char): (path: string)
    ensures EndsWith(path, tableName + ".csv")
    ensures dir == "" ==> path == tableName + ".csv"
    ensures dir != "" && sep !in tableName && sep !in ".csv" ==> InDirectory(path, dir, tableName + ".csv", sep)
  {
    var name := tableName + ".csv";
    assert name[|name| - 4] == '.';
    assert sep !in tableName && sep !in ".csv" ==> !IsRooted(name, sep) by {
      if |tableName| > 0 { assert name[0] == tableName[0]; } else { assert name[0] == '.'; }
    }
    Combine(dir, name, sep)
  }

  /** The file name of an exported table is the table name plus ".csv", whatever the directory. */
  lemma TableFileName(dir: string, tableName: string, sep: char)
    requires sep !in tableName && sep !in ".csv"
    ensures GetFileName(TableFilePath(dir, tableName, sep), sep) == tableName + ".csv"
  {
    CombinedFileName(dir, tableName + ".csv", sep);
  }

  /** `BackupToCsv`: one file per table, in the order the catalog lists the tables, all in the same directory. */
  function BackupFiles(dir: string, tableNames: seq<string>, sep: char): (paths: seq<string>)
    ensures |paths| == |tableNames|
    ensures forall i :: 0 <= i < |tableNames| ==> paths[i] == TableFilePath(dir, tableNames[i], sep)
    ensures dir != "" && sep !in ".csv" ==>
      forall i :: 0 <= i < |tableNames| && sep !in tableNames[i] ==> InDirectory(paths[i], dir, tableNames[i] + ".csv", sep)
  {
    seq(|tableNames|, i requires 0 <= i < |tableNames| => TableFilePath(dir, tableNames[i], sep))
  }

  /**
   Every file of a backup lies in a fresh sub-directory of the configured folder:
   the folder, the stamp, one separator, then the table name plus ".csv".
   */
  lemma BackupFileInFolder(folder: string, now: Instant, tableNames: seq<string>, sep: char, i: int)
    requires folder != "" && !IsDigit(sep) && sep !in ".csv"
    requires 0 <= i < |tableNames| && sep !in tableNames[i]
    ensures StartsWith(BackupFiles(BackupDir(folder, now, sep), tableNames, sep)[i], folder)
    ensures EndsWith(BackupFiles(BackupDir(folder, now, sep), tableNames, sep)[i], Stamp(now) + [sep] + tableNames[i] + ".csv")
  {
    var stamp, name := Stamp(now), tableNames[i] + ".csv";
    assert IsDigit(stamp[0]) && IsDigit(stamp[|stamp| - 1]);
    assert !IsRooted(name, sep) by {
      if |tableNames[i]| > 0 { assert name[0] == tableNames[i][0]; } else { assert name[0] == '.'; }
    }
    NestedCombine(folder, stamp, name, sep);
  }

  /** Distinct table names never share an output file. */
  lemma BackupFilesDistinct(dir: string, tableNames: seq<string>, sep: char, i: int, j: int)
    requires sep !in ".csv"
    requires forall k :: 0 <= k < |tableNames| ==> sep !in tableNames[k]
    requires 0 <= i < |tableNames| && 0 <= j < |tableNames| && tableNames[i] != tableNames[j]
    ensures BackupFiles(dir, tableNames, sep)[i] != BackupFiles(dir, tableNames, sep)[j]
  {
    TableFileName(dir, tableNames[i], sep);
    TableFileName(dir, tableNames[j], sep);
    var a, b := tableNames[i] + ".csv", tableNames[j] + ".csv";
    assert a[..|a| - 4] == tableNames[i] && b[..|b| - 4] == tableNames[j];
  }
}

=== FILE: front_end.dfy ===
/**
 The helpers of the import program's console front end (OracleImport/Program.cs):
 reading an integer with a default, and deriving the target table from a file name.
 */
module FrontEnd {
  import opened Optional
  import opened Text
  import opened Decimal
  import opened Paths
  import Export

  const MinInt32: int := -0x8000_0000
  const MaxInt32: int := 0x7FFF_FFFF

  type Int32 = x: int | MinInt32 <= x <= MaxInt32

  /** The white space `NumberStyles.Integer` lets surround a number: tab through carriage return, and the space. */
  predicate IsWhite(c: char) {
    c == ' ' || '\t' <= c <= '\r'
  }

  function TrimStartWhite(s: string): (t: string)
    ensures |t| <= |s| && t == s[|s| - |t|..]
    ensures |t| > 0 ==> !IsWhite(t[0])
    ensures forall i :: 0 <= i < |s| - |t| ==> IsWhite(s[i])
  {
    if |s| > 0 && IsWhite(s[0]) then TrimStartWhite(s[1..]) else s
  }

  function TrimEndWhite(s: string): (t: string)
    ensures |t| <= |s| && t == s[..|t|]
    ensures |t| > 0 ==> !IsWhite(t[|t| - 1])
    ensures forall i :: |t| <= i < |s| ==> IsWhite(s[i])
  {
    if |s| > 0 && IsWhite(s[|s| - 1]) then TrimEndWhite(s[..|s| - 1]) else s
  }

  /** The text without its leading and trailing white space. */
  function Trim(s: string): (t: string)
    ensures TrimOffset(s) + |t| <= |s|
    ensures t == s[TrimOffset(s)..TrimOffset(s) + |t|]
  {
    TrimEndWhite(TrimStartWhite(s))
  }

  /** The number of white-space characters `Trim` removes at the front. */
  function TrimOffset(s: string): nat {
    |s| - |TrimStartWhite(s)|
  }

  /** An optional '+' or '-' followed by decimal digits whose signed value fits in 32 bits. */
  function ParseSigned(t: string): (r: Option<Int32>)
    ensures r.Some? ==> exists k :: 0 <= k < |t| && IsDigit(t[k])
  {
    var negative := |t| > 0 && t[0] == '-';
    var digits := if |t| > 0 && (t[0] == '-' || t[0] == '+') then t[1..] else t;
    if |digits| == 0 || !AllDigits(digits) then None
    else
      var magnitude: int := Number(digits);
      var v := if negative then -magnitude else magnitude;
      assert IsDigit(t[|t| - |digits|]) by {
        assert t[|t| - |digits|] == digits[0];
      }
      if MinInt32 <= v <= MaxInt32 then Some(v) else None
  }

  /**
   `int.TryParse(s, out v)` with '+' and '-' as the signs: optional white
   space, an optional sign, at least one decimal digit, optional white space,
   and a value that fits in 32 bits.
   */
  function ParseInt32(s: string): (r: Option<Int32>)
    ensures r.Some? ==> exists k :: 0 <= k < |s| && IsDigit(s[k])
  {
    var t := Trim(s);
    var r := ParseSigned(t);
    assert r.Some? ==> exists k :: 0 <= k < |s| && IsDigit(s[k]) by {
      if r.Some? {
        var k :| 0 <= k < |t| && IsDigit(t[k]);
        assert s[TrimOffset(s) + k] == t[k];
      }
    }
    r
  }

  predicate AllWhite(s: string) {
    forall i :: 0 <= i < |s| ==> IsWhite(s[i])
  }

  /** The value of an optional sign and a digit string. */
  function SignedValue(sign: string, digits: string): int
    requires AllDigits(digits)
  {
    var magnitude: int := Number(digits);
    if sign == "-" then -magnitude else magnitude
  }

  /**
   Every text of the accepted shape parses: white space, an optional sign, any
   non-empty digit string (leading zeros allowed), white space. The result is the
   signed value when it fits in 32 bits and nothing otherwise.
   */
  lemma ParsePadded(lead: string, sign: string, digits: string, trail: string)
    requires AllWhite(lead) && AllWhite(trail)
    requires sign == "" || sign == "+" || sign == "-"
    requires |digits| > 0 && AllDigits(digits)
    ensures ParseInt32(lead + sign + digits + trail)
      == (if MinInt32 <= SignedValue(sign, digits) <= MaxInt32 then Some(SignedValue(sign, digits)) else None)
  {
    var body := sign + digits;
    assert !IsWhite(body[0]) by {
      if sign == "" {
        assert body[0] == digits[0];
      }
    }
    assert lead + sign + digits + trail == lead + body + trail;
    TrimPadded(lead, body, trail);
    ParseSignedDigits(sign, digits);
    assert ParseInt32(lead + body + trail) == ParseSigned(body);
  }

  /** Trimming removes exactly the white space around a text that starts and ends with something else. */
  lemma TrimPadded(lead: string, body: string, trail: string)
    requires AllWhite(lead) && AllWhite(trail)
    requires |body| > 0 && !IsWhite(body[0]) && !IsWhite(body[|body| - 1])
    ensures Trim(lead + body + trail) == body
  {
    assert lead + body + trail == lead + (body + trail);
    TrimStartPrefix(lead, body + trail);
    TrimEndSuffix(body, trail);
  }

  /** A sign and a digit string read as their signed value, when it fits in 32 bits. */
  lemma ParseSignedDigits(sign: string, digits: string)
    requires sign == "" || sign == "+" || sign == "-"
    requires |digits| > 0 && AllDigits(digits)
    ensures ParseSigned(sign + digits) == (if MinInt32 <= SignedValue(sign, digits) <= MaxInt32 then Some(SignedValue(sign, digits)) else None)
  {
    var t := sign + digits;
    if sign == "" {
      assert t == digits;
    } else {
      assert t[1..] == digits;
    }
  }

  /** White space in front of a text that starts with something else is trimmed away exactly. */
  lemma TrimStartPrefix(lead: string, x: string)
    requires AllWhite(lead) && |x| > 0 && !IsWhite(x[0])
    ensures TrimStartWhite(lead + x) == x
  {
    var s := lead + x;
    var t := TrimStartWhite(s);
    assert s[|lead|] == x[0];
  }

  /** White space behind a text that ends with something else is trimmed away exactly. */
  lemma TrimEndSuffix(x: string, trail: string)
    requires AllWhite(trail) && |x| > 0 && !IsWhite(x[|x| - 1])
    ensures TrimEndWhite(x + trail) == x
  {
    var s := x + trail;
    var t := TrimEndWhite(s);
    assert s[|x| - 1] == x[|x| - 1];
  }

  /**
   A character that is not a digit makes the text unparsable when it stands
   between two characters that are not white space (it may be one of them):
   "12abc", "1 2", "1-2", "--5".
   */
  lemma ParseRejectsStray(s: string, i: nat, k: nat, j: nat)
    requires i <= k <= j < |s| && !IsWhite(s[i]) && !IsWhite(s[j]) && !IsDigit(s[k])
    requires i == k ==> s[k] != '+' && s[k] != '-'
    ensures ParseInt32(s) == None
  {
    var t := Trim(s);
    var a := TrimOffset(s);
    TrimKeeps(s, i, j);
    TrimChar(s, k);
    assert k - a == 0 ==> i == k;
    ParseSignedRejects(t, k - a);
    ParseOfTrim(s);
  }

  /** `ParseInt32` reads the trimmed text. */
  lemma ParseOfTrim(s: string)
    ensures ParseInt32(s) == ParseSigned(Trim(s))
  {
  }

  /** A character inside the trimmed range keeps its place, shifted by the white space removed at the front. */
  lemma TrimChar(s: string, x: nat)
    requires TrimOffset(s) <= x < TrimOffset(s) + |Trim(s)|
    ensures Trim(s)[x - TrimOffset(s)] == s[x]
  {
  }

  /** Trimming keeps every character from the first to the last that is not white space. */
  lemma TrimKeeps(s: string, i: nat, j: nat)
    requires i <= j < |s| && !IsWhite(s[i]) && !IsWhite(s[j])
    ensures TrimOffset(s) <= i && j < TrimOffset(s) + |Trim(s)|
  {
    var ts := TrimStartWhite(s);
    var a := |s| - |ts|;
    assert a <= i by {
      assert forall x :: 0 <= x < a ==> IsWhite(s[x]);
    }
    var t := TrimEndWhite(ts);
    assert ts[j - a] == s[j];
    assert j - a < |t| by {
      assert forall x :: |t| <= x < |ts| ==> IsWhite(ts[x]);
    }
  }

  /** A character that is not a digit, and not a sign at the front, makes a signed digit string unparsable. */
  lemma ParseSignedRejects(t: string, k: nat)
    requires k < |t| && !IsDigit(t[k])
    requires k == 0 ==> t[k] != '+' && t[k] != '-'
    ensures ParseSigned(t) == None
  {
    if t[0] == '-' || t[0] == '+' {
      assert t[1..][k - 1] == t[k];
    }
  }

  /** The text `int.ToString()` gives for `n`: a '-' for negative numbers, then the shortest decimal digits. */
  function SignedDecimal(n: int): (s: string)
    ensures |s| > 0
  {
    (if n < 0 then "-" else "") + ToDecimal(if n < 0 then -n else n)
  }

  /** The decimal text of a number parses exactly when the number fits in 32 bits, and then to that number. */
  lemma ParseSignedDecimal(n: int)
    ensures ParseInt32(SignedDecimal(n)) == (if MinInt32 <= n <= MaxInt32 then Some(n) else None)
  {
    if n < 0 {
      ParseNegative(n);
    } else {
      ParseNonNegative(n);
    }
  }

  lemma ParseNonNegative(n: nat)
    ensures ParseInt32(SignedDecimal(n)) == (if n <= MaxInt32 then Some(n) else None)
  {
    var s := SignedDecimal(n);
    assert s == "" + ToDecimal(n);
    NothingToTrim(s);
    ParseSignedDigits("", ToDecimal(n));
  }

  lemma ParseNegative(n: int)
    requires n < 0
    ensures ParseInt32(SignedDecimal(n)) == (if MinInt32 <= n then Some(n) else None)
  {
    var s := SignedDecimal(n);
    var digits := ToDecimal(-n);
    assert s == "-" + digits;
    NothingToTrim(s);
    ParseSignedDigits("-", digits);
  }

  /** A text that starts and ends with a sign or digit is left alone by the trimming. */
  lemma NothingToTrim(s: string)
    requires |s| > 0 && (s[0] == '-' || IsDigit(s[0])) && IsDigit(s[|s| - 1])
    ensures Trim(s) == s
  {
    assert TrimStartWhite(s) == s;
  }

  /** `GetIntFromConsole` applied to the line read: the default for a missing or empty line or one that is not a 32-bit integer. */
  function GetIntFromConsole(input: Option<string>, def: Int32): (r: Int32)
    ensures input == None || input == Some("") ==> r == def
  {
    match input
    case None => def
    case Some(line) =>
      if line == "" then def
      else ParseInt32(line).GetOr(def)
  }

  /** A typed integer is read back as itself, whatever the default. */
  lemma ConsoleReadsNumber(n: Int32, def: Int32)
    ensures GetIntFromConsole(Some(SignedDecimal(n)), def) == n
  {
    ParseSignedDecimal(n);
  }

  /** A number too large or too small for 32 bits falls back to the default. */
  lemma ConsoleOverflowDefaults(n: int, def: Int32)
    requires n < MinInt32 || n > MaxInt32
    ensures GetIntFromConsole(Some(SignedDecimal(n)), def) == def
  {
    ParseSignedDecimal(n);
  }

  /** A typed number with white space, a '+' or '-' and leading zeros is read as its value, or as the default when that value does not fit in 32 bits. */
  lemma ConsoleReadsPadded(lead: string, sign: string, zeros: string, n: nat, trail: string, def: Int32)
    requires AllWhite(lead) && AllWhite(trail)
    requires sign == "" || sign == "+" || sign == "-"
    requires forall i :: 0 <= i < |zeros| ==> zeros[i] == '0'
    ensures var m: int := n; var v := if sign == "-" then -m else m;
      GetIntFromConsole(Some(lead + sign + zeros + ToDecimal(n) + trail), def) == (if MinInt32 <= v <= MaxInt32 then v else def)
  {
    var decimal := ToDecimal(n);
    var digits := zeros + decimal;
    LeadingZeros(zeros, decimal);
    assert lead + sign + zeros + decimal + trail == lead + sign + digits + trail;
    ConsoleReadsDigits(lead, sign, digits, trail, def);
    var m: int := n;
    assert SignedValue(sign, digits) == (if sign == "-" then -m else m);
  }

  /** A padded, optionally signed digit string is read as its value when that fits in 32 bits. */
  lemma ConsoleReadsDigits(lead: string, sign: string, digits: string, trail: string, def: Int32)
    requires AllWhite(lead) && AllWhite(trail)
    requires sign == "" || sign == "+" || sign == "-"
    requires |digits| > 0 && AllDigits(digits)
    ensures GetIntFromConsole(Some(lead + sign + digits + trail), def)
      == (if MinInt32 <= SignedValue(sign, digits) <= MaxInt32 then SignedValue(sign, digits) else def)
  {
    var line := lead + sign + digits + trail;
    ParsePadded(lead, sign, digits, trail);
    assert |line| > 0;
  }

  /** A line with a stray character between its non-white characters, such as "12abc" or "1 2", gives the default. */
  lemma ConsoleStrayDefaults(line: string, i: nat, k: nat, j: nat, def: Int32)
    requires i <= k <= j < |line| && !IsWhite(line[i]) && !IsWhite(line[j]) && !IsDigit(line[k])
    requires i == k ==> line[k] != '+' && line[k] != '-'
    ensures GetIntFromConsole(Some(line), def) == def
  {
    ParseRejectsStray(line, i, k, j);
  }

  /** A line without a single decimal digit falls back to the default. */
  lemma ConsoleNoDigitDefaults(line: string, def: Int32)
    requires forall i :: 0 <= i < |line| ==> !IsDigit(line[i])
    ensures GetIntFromConsole(Some(line), def) == def
  {
  }

  const DataTableSuffix: string := "_DATA_TABLE"

  /**
   The table name as the import loop derives it from a file name: a name ending
   in "_DATA_TABLE" has every occurrence of that text removed, any other name is
   used as it is, extension included.
   */
  function TableNameAsWritten(fileName: string): (table: string)
    ensures !EndsWith(fileName, DataTableSuffix) ==> table == fileName
    ensures EndsWith(fileName, DataTableSuffix) ==> |table| + 11 * Occurrences(fileName, DataTableSuffix) == |fileName|
    ensures EndsWith(fileName, DataTableSuffix) ==> |table| <= |fileName| - 11
  {
    if EndsWith(fileName, DataTableSuffix) then
      ReplaceLength(fileName, DataTableSuffix, "");
      EndsWithContains(fileName, DataTableSuffix);
      ReplaceAbsent(fileName, DataTableSuffix, "");
      Replace(fileName, DataTableSuffix, "")
    else fileName
  }

  /**
   For a marked name, the text before the leftmost "_DATA_TABLE" is kept as it
   is, that occurrence is dropped, and the rest of the name is treated the same way.
   */
  lemma MarkedNameLeftmost(fileName: string, head: string, rest: string)
    requires fileName == head + DataTableSuffix + rest && EndsWith(fileName, DataTableSuffix)
    requires forall i :: 0 <= i < |head| ==> !StartsWith((head + DataTableSuffix)[i..], DataTableSuffix)
    ensures TableNameAsWritten(fileName) == head + Replace(rest, DataTableSuffix, "")
  {
    RemoveLeftmost(fileName, head, rest, DataTableSuffix);
  }

  /** A name that is a table name followed by the marker, with no other occurrence, loads that table. */
  lemma MarkedNameStripped(table: string)
    requires forall i :: 0 <= i < |table| ==> !StartsWith((table + DataTableSuffix)[i..], DataTableSuffix)
    ensures TableNameAsWritten(table + DataTableSuffix) == table
  {
    var fileName := table + DataTableSuffix;
    assert fileName == table + DataTableSuffix + "";
    assert fileName[|fileName| - 11..] == DataTableSuffix;
    MarkedNameLeftmost(fileName, table, "");
    assert Replace("", DataTableSuffix, "") == "";
  }

  /** A name ending in ".csv" (in any letter case) never ends in "_DATA_TABLE", so the strip never fires for the files the loop visits. */
  lemma CsvNameNeverStripped(fileName: string)
    requires |fileName| > 0 && (fileName[|fileName| - 1] == 'v' || fileName[|fileName| - 1] == 'V')
    ensures TableNameAsWritten(fileName) == fileName
  {
  }

  /** An exported table's file, imported again, targets a table whose name still carries ".csv". */
  lemma ReimportNameAsWritten(dir: string, tableName: string, sep: char)
    requires sep !in tableName && sep !in ".csv"
    ensures TableNameAsWritten(GetFileName(Export.TableFilePath(dir, tableName, sep), sep)) == tableName + ".csv"
    ensures TableNameAsWritten(GetFileName(Export.TableFilePath(dir, tableName, sep), sep)) != tableName
  {
    Export.TableFileName(dir, tableName, sep);
    CsvNameNeverStripped(tableName + ".csv");
  }

  /** Inner occurrences go too, not only the trailing one. */
  lemma {:induction false} InnerOccurrenceRemoved(fileName: string)
    requires fileName == "A" + DataTableSuffix + "_B" + DataTableSuffix
    ensures TableNameAsWritten(fileName) == "A_B"
  {
    var p, a, b := DataTableSuffix, "A", "_B";
    assert fileName == a + (p + (b + (p + "")));
    assert fileName[|fileName| - |p|..] == p;
    CopiedThenJoined(p, a, b);
  }

  /** Removing the occurrences can join the remaining pieces into a new "_DATA_TABLE". */
  lemma {:induction false} SuffixCanReappear(fileName: string)
    requires fileName == "_DATA" + DataTableSuffix + "_TABLE" + DataTableSuffix
    ensures TableNameAsWritten(fileName) == DataTableSuffix
    ensures Contains(TableNameAsWritten(fileName), DataTableSuffix)
  {
    var p, a, b := DataTableSuffix, "_DATA", "_TABLE";
    assert fileName == a + (p + (b + (p + "")));
    assert fileName[|fileName| - |p|..] == p;
    JoinedHeads(p, a, b);
    assert a + b == p;
    assert StartsWith(p, p);
  }

  /** The index of the last '.' in a file name, if any. */
  function LastDot(name: string): (r: Option<nat>)
    ensures r.Some? ==> r.value < |name| && name[r.value] == '.' && '.' !in name[r.value + 1..]
    ensures r.None? ==> '.' !in name
    decreases |name|
  {
    if |name| == 0 then None
    else if name[|name| - 1] == '.' then Some(|name| - 1)
    else
      var r := LastDot(name[..|name| - 1]);
      if r.Some? then
        assert name[r.value + 1..] == name[..|name| - 1][r.value + 1..] + [name[|name| - 1]];
        r
      else r
  }

  /** `Path.GetFileNameWithoutExtension` for a bare file name: everything before the last '.'. */
  function WithoutExtension(name: string): (stem: string)
    ensures stem <= name
  {
    match LastDot(name)
    case None => name
    case Some(i) => name[..i]
  }

  /**
   The table a file is evidently meant to load: the file name without its
   extension, with one trailing "_DATA_TABLE" removed.
   */
  function ImportTableName(fileName: string): (table: string)
    ensures table <= fileName
  {
    var stem := WithoutExtension(fileName);
    if EndsWith(stem, DataTableSuffix) then stem[..|stem| - 11] else stem
  }

  lemma WithoutCsv(table: string)
    ensures WithoutExtension(table + ".csv") == table
  {
    var name := table + ".csv";
    assert LastDot(table + ".") == Some(|table|);
    assert (table + ".c")[..|table| + 1] == table + ".";
    assert LastDot(table + ".c") == Some(|table|);
    assert (table + ".cs")[..|table| + 2] == table + ".c";
    assert LastDot(table + ".cs") == Some(|table|);
    assert name[..|name| - 1] == table + ".cs";
    assert LastDot(name) == Some(|table|);
  }

  /** A data-table file names the table before its "_DATA_TABLE" marker. */
  lemma ImportTableNameStripsMarker(table: string)
    ensures ImportTableName(table + DataTableSuffix + ".csv") == table
  {
    WithoutCsv(table + DataTableSuffix);
    assert (table + DataTableSuffix)[..|table|] == table;
  }

  /** A plain file names the table before its extension. */
  lemma ImportTableNameDropsExtension(table: string)
    requires !EndsWith(table, DataTableSuffix)
    ensures ImportTableName(table + ".csv") == table
  {
    WithoutCsv(table);
  }

  /** The import loop's target tables as written, one per file found, in the order the files are visited. */
  function ImportTargets(csvFiles: seq<string>, sep: char): (tables: seq<string>)
    ensures |tables| == |csvFiles|
    ensures forall i :: 0 <= i < |csvFiles| ==> tables[i] == TableNameAsWritten(GetFileName(csvFiles[i], sep))
  {
    seq(|csvFiles|, i requires 0 <= i < |csvFiles| => TableNameAsWritten(GetFileName(csvFiles[i], sep)))
  }

  /** The files of a backup, imported again by the loop as written, target each table's name plus ".csv". */
  lemma BackupReimportsAsWritten(dir: string, tableNames: seq<string>, sep: char)
    requires sep !in ".csv"
    requires forall k :: 0 <= k < |tableNames| ==> sep !in tableNames[k]
    ensures |ImportTargets(Export.BackupFiles(dir, tableNames, sep), sep)| == |tableNames|
    ensures forall k :: 0 <= k < |tableNames| ==> ImportTargets(Export.BackupFiles(dir, tableNames, sep), sep)[k] == tableNames[k] + ".csv"
  {
    var files := Export.BackupFiles(dir, tableNames, sep);
    forall k | 0 <= k < |tableNames|
      ensures TableNameAsWritten(GetFileName(files[k], sep)) == tableNames[k] + ".csv"
    {
      ReimportNameAsWritten(dir, tableNames[k], sep);
    }
  }

  /** The target tables under the corrected rule, one per file found, in the order the files are visited. */
  function CorrectedTargets(csvFiles: seq<string>, sep: char): (tables: seq<string>)
    ensures |tables| == |csvFiles|
    ensures forall i :: 0 <= i < |csvFiles| ==> tables[i] == ImportTableName(GetFileName(csvFiles[i], sep))
  {
    seq(|csvFiles|, i requires 0 <= i < |csvFiles| => ImportTableName(GetFileName(csvFiles[i], sep)))
  }

  /** Under the corrected rule, the files of a backup target exactly the tables they were exported from, in order. */
  lemma BackupReimportsSameTables(dir: string, tableNames: seq<string>, sep: char)
    requires sep !in ".csv"
    requires forall k :: 0 <= k < |tableNames| ==> sep !in tableNames[k] && !EndsWith(tableNames[k], DataTableSuffix)
    ensures CorrectedTargets(Export.BackupFiles(dir, tableNames, sep), sep) == tableNames
  {
    var files := Export.BackupFiles(dir, tableNames, sep);
    forall k | 0 <= k < |tableNames|
      ensures ImportTableName(GetFileName(files[k], sep)) == tableNames[k]
    {
      Export.TableFileName(dir, tableNames[k], sep);
      ImportTableNameDropsExtension(tableNames[k]);
    }
  }
}

=== FILE: import_run.dfy ===
/**
 `Import` in DapperImport.cs: the insert statement is built from the fetched
 columns, the CSV records are read lazily and cut into chunks, and each chunk is
 executed in a transaction of its own. The database's verdict on a chunk is the
 opaque oracle `exec`, indexed by chunk position.

 Three things can happen to a chunk. It commits. Or the insert or the commit
 throws inside the `try`: the warning is logged, the transaction is disposed
 without a commit, so none of its rows stay, and the loop goes on. Or
 `BeginTransactionAsync` throws: it stands before the `try`, so the exception
 leaves `Import` and no later chunk is attempted. A record the reader cannot
 read also throws outside the `try`, while the chunk holding it is being filled.
 */
module ImportRun {
  import opened Optional
  import opened Batching
  import opened InsertStatement
  import opened Text

  /** What happens to a chunk handed to the database. */
  datatype Outcome =
    | Succeeded                // the insert and the commit went through
    | Failed(message: string)  // an exception inside the `try`
    | Refused(message: string) // `BeginTransactionAsync` threw, outside the `try`

  /** What the loop leaves behind for one chunk: a commit, or a warning in the log. */
  datatype Event = Committed(chunk: nat) | Warned(chunk: nat, text: string)

  /** How `Import` ends: normally, or with an exception that escapes it. */
  datatype Ending =
    | Completed
    | TransactionRefused(chunk: nat, message: string)
    | RecordUnreadable(record: nat)

  /** The warning text logged for a failed chunk. */
  function WarningText(tableName: string, message: string): (text: string)
    ensures StartsWith(text, "Table " + tableName) && EndsWith(text, message)
  {
    "Table " + tableName + " Import Error: " + message
  }

  /** The first of the chunks `0 .. n - 1` whose transaction is refused, or `n` when none is. */
  function FirstRefused(n: nat, exec: nat -> Outcome): (k: nat)
    ensures k <= n
    ensures forall i :: 0 <= i < k ==> !exec(i).Refused?
    ensures k < n ==> exec(k).Refused?
  {
    if n == 0 then 0
    else
      var k := FirstRefused(n - 1, exec);
      if k < n - 1 then k
      else if exec(n - 1).Refused? then n - 1
      else n
  }

  /** The rows of the successful chunks, in chunk order. */
  function CommittedRows<T>(chunks: seq<seq<T>>, exec: nat -> Outcome): seq<T>
    decreases |chunks|
  {
    if |chunks| == 0 then []
    else
      var last := |chunks| - 1;
      CommittedRows(chunks[..last], exec) + (if exec(last).Succeeded? then chunks[last] else [])
  }

  /** The event the loop records for chunk `i`, whose transaction was begun. */
  function EventFor(tableName: string, i: nat, outcome: Outcome): Event
    requires !outcome.Refused?
  {
    match outcome
    case Succeeded => Committed(i)
    case Failed(message) => Warned(i, WarningText(tableName, message))
  }

  /**
   Runs the chunks in order until a transaction is refused. A failed chunk does
   not stop the loop; a refused one does, and `refused` names it. The table holds
   the rows of exactly the successful chunks before that point, and the log has
   one event per chunk attempted, in chunk order.
   */
  method ImportChunks<T>(tableName: string, chunks: seq<seq<T>>, exec: nat -> Outcome)
    returns (table: seq<T>, log: seq<Event>, refused: Option<nat>)
    ensures refused == (if FirstRefused(|chunks|, exec) < |chunks| then Some(FirstRefused(|chunks|, exec)) else None)
    ensures table == CommittedRows(chunks[..FirstRefused(|chunks|, exec)], exec)
    ensures |log| == FirstRefused(|chunks|, exec)
    ensures forall i :: 0 <= i < |log| ==> log[i] == EventFor(tableName, i, exec(i))
    ensures forall i :: 0 <= i < |log| ==> (log[i].Committed? <==> exec(i).Succeeded?)
  {
    table, log := [], [];
    var k := 0;
    while k < |chunks| && !exec(k).Refused?
      invariant 0 <= k <= |chunks|
      invariant forall i :: 0 <= i < k ==> !exec(i).Refused?
      invariant table == CommittedRows(chunks[..k], exec)
      invariant |log| == k
      invariant forall i :: 0 <= i < k ==> log[i] == EventFor(tableName, i, exec(i))
    {
      assert chunks[..k + 1][..k] == chunks[..k];
      if exec(k).Succeeded? {
        table := table + chunks[k];
      }
      log := log + [EventFor(tableName, k, exec(k))];
      k := k + 1;
    }
    assert k == FirstRefused(|chunks|, exec);
    refused := if k < |chunks| then Some(k) else None;
  }

  /** The oracle of a connection that is not open: every transaction is refused with `message`. */
  function ClosedConnection(message: string): nat -> Outcome {
    _ => Refused(message)
  }

  /**
   `Import` as written. The connection is never opened: Dapper's catalog query
   opens a closed connection and closes it again, so `BeginTransactionAsync`
   meets a closed connection, throws `refusal` outside the `try`, and `Import`
   ends at the first chunk. Nothing is loaded and no warning is logged.
   */
  method ImportAsWritten<T>(tableName: string, columns: seq<TableColumn>, records: seq<Option<T>>, batchSize: int, refusal: string)
    returns (sql: string, table: seq<T>, log: seq<Event>, ending: Ending)
    ensures sql == InsertSql(tableName, columns)
    ensures table == [] && log == []
    ensures |YieldedGroups(records, batchSize)| > 0 ==> ending == TransactionRefused(0, refusal)
    ensures |YieldedGroups(records, batchSize)| == 0 && FirstFailure(records) < |records| ==> ending == RecordUnreadable(FirstFailure(records))
    ensures |YieldedGroups(records, batchSize)| == 0 && FirstFailure(records) == |records| ==> ending == Completed
  {
    sql := InsertSql(tableName, columns);
    var chunks, failure := GroupListStream(records, batchSize);
    var exec := ClosedConnection(refusal);
    var refused;
    table, log, refused := ImportChunks(tableName, chunks, exec);
    assert |chunks| > 0 ==> FirstRefused(|chunks|, exec) == 0;
    assert chunks[..0] == [];
    if refused.Some? {
      ending := TransactionRefused(refused.value, exec(refused.value).message);
    } else if failure.Some? {
      ending := RecordUnreadable(failure.value);
    } else {
      ending := Completed;
    }
  }

  /**
   `Import` with the connection opened before the loop. The chunks handed out
   before the reader fails are run until a transaction is refused; the committed
   rows and the log are those of the chunk loop over them.
   */
  method Import<T>(tableName: string, columns: seq<TableColumn>, records: seq<Option<T>>, batchSize: int, exec: nat -> Outcome)
    returns (sql: string, table: seq<T>, log: seq<Event>, ending: Ending)
    ensures sql == InsertSql(tableName, columns)
    ensures table == CommittedRows(YieldedGroups(records, batchSize)[..FirstRefused(|YieldedGroups(records, batchSize)|, exec)], exec)
    ensures |log| == FirstRefused(|YieldedGroups(records, batchSize)|, exec)
    ensures forall i :: 0 <= i < |log| ==> log[i] == EventFor(tableName, i, exec(i))
    ensures FirstRefused(|YieldedGroups(records, batchSize)|, exec) < |YieldedGroups(records, batchSize)| ==>
      ending == TransactionRefused(|log|, exec(|log|).message)
    ensures FirstRefused(|YieldedGroups(records, batchSize)|, exec) == |YieldedGroups(records, batchSize)| ==>
      ending == (if FirstFailure(records) < |records| then RecordUnreadable(FirstFailure(records)) else Completed)
  {
    sql := InsertSql(tableName, columns);
    var chunks, failure := GroupListStream(records, batchSize);
    var refused;
    table, log, refused := ImportChunks(tableName, chunks, exec);
    if refused.Some? {
      ending := TransactionRefused(refused.value, exec(refused.value).message);
    } else if failure.Some? {
      ending := RecordUnreadable(failure.value);
    } else {
      ending := Completed;
    }
  }

  /**
   Nothing after a refused transaction is attempted: oracles that agree up to and
   including the first refused chunk stop at the same chunk and commit the same rows.
   */
  lemma LaterOutcomesIgnored<T>(chunks: seq<seq<T>>, exec: nat -> Outcome, other: nat -> Outcome)
    requires forall i :: 0 <= i <= FirstRefused(|chunks|, exec) && i < |chunks| ==> other(i) == exec(i)
    ensures FirstRefused(|chunks|, other) == FirstRefused(|chunks|, exec)
    ensures CommittedRows(chunks[..FirstRefused(|chunks|, exec)], other) == CommittedRows(chunks[..FirstRefused(|chunks|, exec)], exec)
  {
    var k := FirstRefused(|chunks|, exec);
    SameOutcomesSameRows(chunks[..k], exec, other);
  }

  /**
   A failing chunk never undoes an earlier commit: whatever the later chunks do,
   the rows committed by the first `k` chunks stay at the head of the table.
   */
  lemma {:induction false} EarlierCommitsKept<T>(chunks: seq<seq<T>>, exec: nat -> Outcome, later: nat -> Outcome, k: nat)
    requires k <= |chunks|
    requires forall i :: 0 <= i < k ==> later(i) == exec(i)
    ensures CommittedRows(chunks[..k], exec) <= CommittedRows(chunks, later)
    decreases |chunks|
  {
    var n := |chunks|;
    if k == n {
      assert chunks[..k] == chunks;
      SameOutcomesSameRows(chunks, exec, later);
    } else {
      var last := n - 1;
      assert chunks[..last][..k] == chunks[..k];
      EarlierCommitsKept(chunks[..last], exec, later, k);
    }
  }

  /** Two oracles that agree on every chunk commit the same rows. */
  lemma {:induction false} SameOutcomesSameRows<T>(chunks: seq<seq<T>>, exec: nat -> Outcome, other: nat -> Outcome)
    requires forall i :: 0 <= i < |chunks| ==> other(i) == exec(i)
    ensures CommittedRows(chunks, exec) == CommittedRows(chunks, other)
    decreases |chunks|
  {
    if |chunks| > 0 {
      SameOutcomesSameRows(chunks[..|chunks| - 1], exec, other);
    }
  }

  /** When every chunk succeeds, the table receives every row, in order. */
  lemma {:induction false} AllSucceededLoadsAll<T>(chunks: seq<seq<T>>, exec: nat -> Outcome)
    requires forall i :: 0 <= i < |chunks| ==> exec(i).Succeeded?
    ensures CommittedRows(chunks, exec) == Flatten(chunks)
    decreases |chunks|
  {
    if |chunks| > 0 {
      var last := |chunks| - 1;
      AllSucceededLoadsAll(chunks[..last], exec);
      FlattenAppend(chunks[..last], [chunks[last]]);
      assert chunks[..last] + [chunks[last]] == chunks;
      assert Flatten([chunks[last]]) == chunks[last] + Flatten([chunks[last]][1..]);
    }
  }

  /** When every chunk fails, nothing is loaded. */
  lemma {:induction false} AllFailedLoadsNothing<T>(chunks: seq<seq<T>>, exec: nat -> Outcome)
    requires forall i :: 0 <= i < |chunks| ==> exec(i).Failed?
    ensures CommittedRows(chunks, exec) == []
    decreases |chunks|
  {
    if |chunks| > 0 {
      AllFailedLoadsNothing(chunks[..|chunks| - 1], exec);
    }
  }

  /**
   An import in which every record is read and every chunk commits loads exactly
   the file's rows, in file order.
   */
  lemma ImportLoadsAllRows<T>(records: seq<Option<T>>, rows: seq<T>, batchSize: int, exec: nat -> Outcome)
    requires |records| == |rows| && forall i :: 0 <= i < |records| ==> records[i] == Some(rows[i])
    requires forall i :: 0 <= i < |GroupList(rows, batchSize)| ==> exec(i).Succeeded?
    ensures FirstRefused(|YieldedGroups(records, batchSize)|, exec) == |YieldedGroups(records, batchSize)|
    ensures CommittedRows(YieldedGroups(records, batchSize), exec) == rows
  {
    YieldedWithoutFailure(records, rows, batchSize);
    AllSucceededLoadsAll(GroupList(rows, batchSize), exec);
  }
}

=== FILE: insert_statement.dfy ===
/**
 The column catalog rows fetched for the target table and the parameterised
 `INSERT` statement built from them (`GetColumns` and `GetInsertSql` in
 DapperImport.cs). The catalog query itself runs in the database and is not
 modelled: its result, already in column order, is the input here.
 */
module InsertStatement {
  import opened Optional
  import opened Text

  /** One row of the catalog query; `nullable` is the NULLABLE text (Oracle writes "Y" or "N"), `None` for a database null. */
  datatype CatalogRow = CatalogRow(columnId: int, columnName: string, dataType: string, nullable: Option<string>)

  /** The column as the importer keeps it. */
  datatype TableColumn = TableColumn(id: int, name: string, dataType: string, nullAble: bool)

  /** Only the exact text "Y" marks a column as nullable; id, name and type are copied. */
  function ToTableColumn(row: CatalogRow): (c: TableColumn)
    ensures c.nullAble <==> row.nullable == Some("Y")
  {
    TableColumn(row.columnId, row.columnName, row.dataType, row.nullable == Some("Y"))
  }

  /** The catalog row a column is read from, with Oracle's "Y"/"N" flag. */
  function ToCatalogRow(c: TableColumn): (row: CatalogRow)
    ensures row.nullable == Some("Y") || row.nullable == Some("N")
  {
    CatalogRow(c.id, c.name, c.dataType, Some(if c.nullAble then "Y" else "N"))
  }

  /** Reading a column back from the catalog row it came from loses nothing, and the converse holds for every well-formed flag. */
  lemma CatalogRoundTrip(c: TableColumn, row: CatalogRow)
    ensures ToTableColumn(ToCatalogRow(c)) == c
    ensures row.nullable == Some("Y") || row.nullable == Some("N") ==> ToCatalogRow(ToTableColumn(row)) == row
  {
  }

  /** Every flag other than exactly "Y" (lower case "y", "N", a database null) reads as not nullable. */
  lemma NotNullableUnlessY(row: CatalogRow)
    requires row.nullable != Some("Y")
    ensures !ToTableColumn(row).nullAble
  {
  }

  /** The column list of the table, in the order the catalog returned it. */
  function FetchColumns(rows: seq<CatalogRow>): (columns: seq<TableColumn>)
    ensures |columns| == |rows|
    ensures forall i :: 0 <= i < |rows| ==> columns[i] == ToTableColumn(rows[i])
  {
    if |rows| == 0 then [] else [ToTableColumn(rows[0])] + FetchColumns(rows[1..])
  }

  function QuotedNames(columns: seq<TableColumn>): (names: seq<string>)
    ensures |names| == |columns|
    ensures forall i :: 0 <= i < |columns| ==> names[i] == "\"" + columns[i].name + "\""
  {
    seq(|columns|, i requires 0 <= i < |columns| => "\"" + columns[i].name + "\"")
  }

  function Placeholders(columns: seq<TableColumn>): (params: seq<string>)
    ensures |params| == |columns|
    ensures forall i :: 0 <= i < |columns| ==> params[i] == ":" + columns[i].name
  {
    seq(|columns|, i requires 0 <= i < |columns| => ":" + columns[i].name)
  }

  /** The statement shape: the table name spliced in as given, then the column list and the parameter list. */
  function Assemble(table: string, columnText: string, parameterText: string): string {
    "INSERT INTO " + table + " (" + columnText + ") VALUES (" + parameterText + ")"
  }

  /**
   The statement text: the double-quoted column names joined by commas, and one
   `:name` placeholder per column, joined the same way.
   */
  function InsertSql(table: string, columns: seq<TableColumn>): (sql: string)
    ensures StartsWith(sql, "INSERT INTO " + table + " (") && EndsWith(sql, ")")
  {
    Assemble(table, Join(',', QuotedNames(columns)), Join(',', Placeholders(columns)))
  }

  /** The three parts of an `INSERT INTO t (c1,...) VALUES (p1,...)` text. */
  datatype InsertParts = InsertParts(table: string, columnList: seq<string>, parameterList: seq<string>)

  /** A comma list; the empty text is the empty list. */
  function SplitList(s: string): seq<string> {
    if s == "" then [] else Split(s, ',')
  }

  /**
   Reads an `INSERT` text back into its parts: the table runs up to the first
   " (", the column list up to the next ')', the parameter list is what lies
   between ") VALUES (" and the final ')'.
   */
  function ParseInsert(s: string): (r: Option<InsertParts>)
    ensures r.Some? ==> StartsWith(s, "INSERT INTO ")
  {
    if !StartsWith(s, "INSERT INTO ") then None else ParseTarget(s[12..])
  }

  /** The table name and " (" up to the first '(' of the text after the keywords. */
  function ParseTarget(rest: string): Option<InsertParts> {
    match FindChar(rest, '(')
    case None => None
    case Some(i) =>
      if i == 0 || rest[i - 1] != ' ' then None
      else ParseLists(rest[..i - 1], rest[i + 1..])
  }

  /** The column list up to the first ')', then ") VALUES (", the parameter list and a closing ')'. */
  function ParseLists(table: string, after: string): Option<InsertParts> {
    match FindChar(after, ')')
    case None => None
    case Some(j) =>
      var tail := after[j..];
      if |tail| < 11 || !StartsWith(tail, ") VALUES (") || tail[|tail| - 1] != ')' then None
      else Some(InsertParts(table, SplitList(after[..j]), SplitList(tail[10..|tail| - 1])))
  }

  /** A character that is neither the separator nor inside any part is not in the joined text. */
  lemma {:induction false} JoinExcludes(sep: char, parts: seq<string>, c: char)
    requires c != sep
    requires forall i :: 0 <= i < |parts| ==> c !in parts[i]
    ensures c !in Join(sep, parts)
    decreases |parts|
  {
    if |parts| > 1 {
      JoinExcludes(sep, parts[1..], c);
    }
  }

  /** Splitting a joined list of separator-free, non-empty parts gives the parts back. */
  lemma SplitListJoin(parts: seq<string>)
    requires forall i :: 0 <= i < |parts| ==> ',' !in parts[i] && |parts[i]| > 0
    ensures SplitList(Join(',', parts)) == parts
  {
    if |parts| > 0 {
      assert |Join(',', parts)| >= |parts[0]|;
      SplitJoin(',', parts);
    }
  }

  lemma ParseListsAssembled(table: string, columnText: string, parameterText: string)
    requires ')' !in columnText
    ensures ParseLists(table, columnText + ") VALUES (" + parameterText + ")")
         == Some(InsertParts(table, SplitList(columnText), SplitList(parameterText)))
  {
    var tail := ") VALUES (" + parameterText + ")";
    ValuesTail(parameterText);
    var after := columnText + tail;
    assert columnText + ") VALUES (" + parameterText + ")" == after;
    assert after == columnText + [')'] + tail[1..];
    FindCharAfter(columnText, ')', tail[1..]);
    assert after[..|columnText|] == columnText;
    assert after[|columnText|..] == tail;
    assert after[|columnText| + 10..|after| - 1] == tail[10..|tail| - 1];
    ParseListsAt(table, after, |columnText|);
  }

  /** The text after the column list: ") VALUES (", the parameter text and ')'. */
  lemma ValuesTail(parameterText: string)
    ensures var tail := ") VALUES (" + parameterText + ")";
      |tail| >= 11 && StartsWith(tail, ") VALUES (") && tail[0] == ')' && tail[|tail| - 1] == ')'
      && tail[10..|tail| - 1] == parameterText
  {
    var tail := ") VALUES (" + parameterText + ")";
    assert tail[..10] == ") VALUES (";
    assert tail[10..|tail| - 1] == parameterText;
  }

  /** The lists are read at the first ')' when the text from there has the `) VALUES (...)` shape. */
  lemma ParseListsAt(table: string, after: string, j: nat)
    requires FindChar(after, ')') == Some(j)
    requires |after[j..]| >= 11 && StartsWith(after[j..], ") VALUES (") && after[|after| - 1] == ')'
    ensures ParseLists(table, after) == Some(InsertParts(table, SplitList(after[..j]), SplitList(after[j + 10..|after| - 1])))
  {
    var tail := after[j..];
    assert tail[10..|tail| - 1] == after[j + 10..|after| - 1];
  }

  lemma ParseTargetAssembled(table: string, after: string)
    requires '(' !in table
    ensures ParseTarget(table + " (" + after) == ParseLists(table, after)
  {
    var rest := (table + " ") + ['('] + after;
    assert table + " (" + after == rest;
    FindCharAfter(table + " ", '(', after);
    var i := |table| + 1;
    assert rest[i - 1] == ' ';
    assert rest[..i - 1] == table;
    assert rest[i + 1..] == after;
  }

  /** The statement shape reads back into its three texts when the table has no '(' and the column text no ')'. */
  lemma ParseAssemble(table: string, columnText: string, parameterText: string)
    requires '(' !in table && ')' !in columnText
    ensures ParseInsert(Assemble(table, columnText, parameterText))
         == Some(InsertParts(table, SplitList(columnText), SplitList(parameterText)))
  {
    var s := Assemble(table, columnText, parameterText);
    var after := columnText + ") VALUES (" + parameterText + ")";
    assert s == "INSERT INTO " + (table + " (" + after);
    assert s[..12] == "INSERT INTO ";
    assert s[12..] == table + " (" + after;
    ParseTargetAssembled(table, after);
    ParseListsAssembled(table, columnText, parameterText);
  }

  /**
   The statement decomposes into exactly the table name, the quoted column names
   in catalog order and the matching placeholders in the same order, provided the
   table name has no '(' and no column name has a ',' or a ')'.
   */
  lemma InsertSqlParses(table: string, columns: seq<TableColumn>)
    requires '(' !in table
    requires forall i :: 0 <= i < |columns| ==> ',' !in columns[i].name && ')' !in columns[i].name
    ensures ParseInsert(InsertSql(table, columns)) == Some(InsertParts(table, QuotedNames(columns), Placeholders(columns)))
  {
    var cols, params := QuotedNames(columns), Placeholders(columns);
    forall k | 0 <= k < |cols|
      ensures ')' !in cols[k] && ',' !in cols[k] && |cols[k]| > 0
    {
      assert cols[k] == "\"" + columns[k].name + "\"";
    }
    forall k | 0 <= k < |params|
      ensures ',' !in params[k] && |params[k]| > 0
    {
      assert params[k] == ":" + columns[k].name;
    }
    JoinExcludes(',', cols, ')');
    ParseAssemble(table, Join(',', cols), Join(',', params));
    SplitListJoin(cols);
    SplitListJoin(params);
  }
}

=== FILE: optional.dfy ===
/** An absent-or-present value: a setting that may be unset, a record that may fail to read, a line that may be null. */
module Optional {

  datatype Option<+T> = None | Some(value: T) {

    /** Returns the wrapped value, or `default` when there is none. */
    function GetOr(default: T): (r: T)
      ensures Some? ==> r == value
      ensures None? ==> r == default
    {
      match this
      case Some(v) => v
      case None => default
    }
  }
}

=== FILE: paths.dfy ===
/**
 The two `System.IO.Path` operations the tool uses to name its files, for a
 platform whose only directory separator is `sep` and on which a path is rooted
 when it starts with that separator.
 */
module Paths {
  import opened Text

  predicate IsRooted(path: string, sep: char) {
    |path| > 0 && path[0] == sep
  }

  /**
   `Path.Combine(first, second)`: an empty part yields the other one, a rooted
   second part replaces the first, and a separator is inserted only when the
   first part does not already end with one.
   */
  function Combine(first: string, second: string, sep: char): (path: string)
    ensures EndsWith(path, second)
    ensures first == "" || IsRooted(second, sep) ==> path == second
    ensures second == "" ==> path == first
    ensures first != "" && second != "" && !IsRooted(second, sep) ==> InDirectory(path, first, second, sep)
  {
    if first == "" then second
    else if second == "" then first
    else if IsRooted(second, sep) then second
    else if first[|first| - 1] == sep then first + second
    else first + [sep] + second
  }

  /**
   `path` is `second` placed in `first`: `first`, then one separator unless
   `first` already ends with one, then `second`.
   */
  predicate InDirectory(path: string, first: string, second: string, sep: char) {
    StartsWith(path, first) && EndsWith(path, second)
    && |first| > 0
    && (if first[|first| - 1] == sep then |path| == |first| + |second|
        else |path| == |first| + 1 + |second| && path[|first|] == sep)
  }

  /** A relative name combined into a directory that does not end with a separator gets one. */
  lemma CombineAppends(dir: string, name: string, sep: char)
    requires dir != "" && name != "" && !IsRooted(name, sep) && dir[|dir| - 1] != sep
    ensures Combine(dir, name, sep) == dir + [sep] + name
  {
  }

  /** Both parts present and the second relative: one separator joins them unless the first already ends with one. */
  lemma CombineShape(first: string, second: string, sep: char)
    requires first != "" && second != "" && !IsRooted(second, sep)
    ensures Combine(first, second, sep) == first + (if first[|first| - 1] == sep then "" else [sep]) + second
  {
  }

  /** `dir`, a separator and a name, where `dir` is `first`, a middle and `sub`: the text starts with `first` and ends with `sub`, the separator and the name. */
  lemma NestedShape(dir: string, first: string, mid: string, sub: string, name: string, sep: char)
    requires dir == first + mid + sub
    ensures StartsWith(dir + [sep] + name, first) && EndsWith(dir + [sep] + name, sub + [sep] + name)
  {
    var f := dir + [sep] + name;
    var tail := sub + [sep] + name;
    assert f == first + (mid + tail);
    assert f[..|first|] == first;
    assert f[|f| - |tail|..] == tail;
  }

  /**
   A name combined into a sub-directory of `first` that does not end with a
   separator sits in that sub-directory: the path starts with `first` and ends
   with the sub-directory, one separator and the name.
   */
  lemma NestedCombine(first: string, sub: string, name: string, sep: char)
    requires first != "" && sub != "" && name != ""
    requires !IsRooted(sub, sep) && !IsRooted(name, sep) && sub[|sub| - 1] != sep
    ensures StartsWith(Combine(Combine(first, sub, sep), name, sep), first)
    ensures EndsWith(Combine(Combine(first, sub, sep), name, sep), sub + [sep] + name)
  {
    var mid: string := if first[|first| - 1] == sep then "" else [sep];
    CombineShape(first, sub, sep);
    var dir := first + mid + sub;
    assert dir[|dir| - 1] == sub[|sub| - 1];
    CombineAppends(dir, name, sep);
    NestedShape(dir, first, mid, sub, name, sep);
  }

  /** `Path.GetFileName`: the text after the last separator. */
  function GetFileName(path: string, sep: char): (name: string)
    ensures sep !in name
    ensures EndsWith(path, name)
    decreases |path|
  {
    if |path| == 0 then ""
    else if path[|path| - 1] == sep then ""
    else
      var name := GetFileName(path[..|path| - 1], sep) + [path[|path| - 1]];
      assert path[|path| - |name|..] == path[..|path| - 1][|path| - |name|..] + [path[|path| - 1]];
      name
  }

  /** The file name is the whole path or follows a separator, so no longer separator-free suffix exists. */
  lemma {:induction false} FileNameFollowsSeparator(path: string, sep: char)
    ensures |GetFileName(path, sep)| == |path| || path[|path| - |GetFileName(path, sep)| - 1] == sep
    decreases |path|
  {
    if |path| > 0 && path[|path| - 1] != sep {
      var front := path[..|path| - 1];
      var prev := GetFileName(front, sep);
      FileNameFollowsSeparator(front, sep);
      assert |GetFileName(path, sep)| == |prev| + 1;
      assert |prev| < |front| ==> path[|path| - |prev| - 2] == front[|front| - |prev| - 1];
    }
  }

  /** A name without separators is its own file name. */
  lemma {:induction false} FileNameOfName(name: string, sep: char)
    requires sep !in name
    ensures GetFileName(name, sep) == name
    decreases |name|
  {
    if |name| > 0 {
      FileNameOfName(name[..|name| - 1], sep);
    }
  }

  /** Whatever precedes the last separator does not affect the file name. */
  lemma {:induction false} FileNameAfterSeparator(dir: string, sep: char, name: string)
    requires sep !in name
    ensures GetFileName(dir + [sep] + name, sep) == name
    decreases |name|
  {
    var path := dir + [sep] + name;
    if |name| == 0 {
    } else {
      var last := |name| - 1;
      assert path[..|path| - 1] == dir + [sep] + name[..last];
      FileNameAfterSeparator(dir, sep, name[..last]);
    }
  }

  /** Combining a directory with a plain, non-empty file name keeps that name as the file name. */
  lemma CombinedFileName(dir: string, name: string, sep: char)
    requires name != "" && sep !in name
    ensures GetFileName(Combine(dir, name, sep), sep) == name
  {
    if dir == "" {
      FileNameOfName(name, sep);
    } else if dir[|dir| - 1] == sep {
      assert dir + name == dir[..|dir| - 1] + [sep] + name;
      FileNameAfterSeparator(dir[..|dir| - 1], sep, name);
    } else {
      FileNameAfterSeparator(dir, sep, name);
    }
  }
}

=== FILE: text.dfy ===
/**
 Ordinal string operations of the .NET base library that the tool relies on:
 suffix tests, `string.Replace`, `string.Join` and a comma splitter that undoes it.
 Strings are sequences of UTF-16 code units, compared code unit by code unit.
 */
module Text {
  import opened Optional

  predicate StartsWith(s: string, prefix: string) {
    |prefix| <= |s| && s[..|prefix|] == prefix
  }

  /** Ordinal `EndsWith`. */
  predicate EndsWith(s: string, suffix: string) {
    |suffix| <= |s| && s[|s| - |suffix|..] == suffix
  }

  /** True when `pattern` occurs somewhere in `s`. */
  predicate Contains(s: string, pattern: string)
    decreases |s|
  {
    StartsWith(s, pattern) || (|s| > 0 && Contains(s[1..], pattern))
  }

  /**
   Ordinal `string.Replace(pattern, replacement)`: the string is scanned from the
   left and every non-overlapping occurrence of `pattern` is replaced.
   .NET rejects an empty pattern, hence the precondition.
   */
  function Replace(s: string, pattern: string, replacement: string): (r: string)
    requires |pattern| > 0
    decreases |s|
  {
    if |s| < |pattern| then s
    else if StartsWith(s, pattern) then replacement + Replace(s[|pattern|..], pattern, replacement)
    else [s[0]] + Replace(s[1..], pattern, replacement)
  }

  /** Replacing a pattern by itself gives back the text unchanged. */
  lemma {:induction false} ReplaceBySelf(s: string, pattern: string)
    requires |pattern| > 0
    ensures Replace(s, pattern, pattern) == s
    decreases |s|
  {
    if |s| < |pattern| {
    } else if StartsWith(s, pattern) {
      ReplaceBySelf(s[|pattern|..], pattern);
      assert s == s[..|pattern|] + s[|pattern|..];
    } else {
      ReplaceBySelf(s[1..], pattern);
      assert s == [s[0]] + s[1..];
    }
  }

  /** An occurrence at the head is replaced and the scan resumes right after it. */
  lemma ReplaceHit(s: string, pattern: string, replacement: string)
    requires |pattern| > 0 && StartsWith(s, pattern)
    ensures Replace(s, pattern, replacement) == replacement + Replace(s[|pattern|..], pattern, replacement)
  {
  }

  /** A text at least as long as the pattern that does not start with it keeps its first character. */
  lemma ReplaceSkip(s: string, pattern: string, replacement: string)
    requires |pattern| > 0 && |pattern| <= |s| && !StartsWith(s, pattern)
    ensures Replace(s, pattern, replacement) == [s[0]] + Replace(s[1..], pattern, replacement)
  {
  }

  /** A head that differs from the pattern at some position keeps its first character. */
  lemma ReplaceMiss(s: string, pattern: string, replacement: string, k: nat)
    requires |pattern| > 0 && |pattern| <= |s| && k < |pattern| && s[k] != pattern[k]
    ensures Replace(s, pattern, replacement) == [s[0]] + Replace(s[1..], pattern, replacement)
  {
    assert s[..|pattern|][k] != pattern[k];
  }

  /** A character that differs from the pattern's first character starts no occurrence and is copied. */
  lemma CopiesFirst(s: string, pattern: string, replacement: string)
    requires |pattern| > 0 && |s| > 0 && s[0] != pattern[0]
    ensures Replace(s, pattern, replacement) == [s[0]] + Replace(s[1..], pattern, replacement)
  {
    if |s| >= |pattern| {
      ReplaceMiss(s, pattern, replacement, 0);
    }
  }

  /** Characters that differ from the pattern's first character start no occurrence and are copied. */
  lemma {:induction false} ReplaceCopiesHead(head: string, rest: string, pattern: string, replacement: string)
    requires |pattern| > 0
    requires forall i :: 0 <= i < |head| ==> head[i] != pattern[0]
    ensures Replace(head + rest, pattern, replacement) == head + Replace(rest, pattern, replacement)
    decreases |head|
  {
    if |head| > 0 {
      var s := head + rest;
      CopiesFirst(s, pattern, replacement);
      assert s[1..] == head[1..] + rest;
      ReplaceCopiesHead(head[1..], rest, pattern, replacement);
      assert head == [head[0]] + head[1..];
    } else {
      assert head + rest == rest;
    }
  }

  /**
   The scan meets the leftmost occurrence after copying the text before it: when
   no occurrence starts inside `head`, the occurrence right after `head` is
   replaced and the scan resumes after it.
   */
  lemma {:induction false} ReplaceLeftmost(head: string, rest: string, pattern: string, replacement: string)
    requires |pattern| > 0
    requires forall i :: 0 <= i < |head| ==> !StartsWith((head + pattern)[i..], pattern)
    ensures Replace(head + pattern + rest, pattern, replacement) == head + replacement + Replace(rest, pattern, replacement)
    decreases |head|
  {
    var s := head + pattern + rest;
    if |head| == 0 {
      assert s == pattern + rest;
      assert s[..|pattern|] == pattern && s[|pattern|..] == rest;
      ReplaceHit(s, pattern, replacement);
    } else {
      assert !StartsWith(s, pattern) by {
        assert (head + pattern)[0..] == head + pattern;
        assert s[..|pattern|] == (head + pattern)[..|pattern|];
      }
      ReplaceSkip(s, pattern, replacement);
      assert s[1..] == head[1..] + pattern + rest;
      forall i | 0 <= i < |head| - 1
        ensures !StartsWith((head[1..] + pattern)[i..], pattern)
      {
        assert (head[1..] + pattern)[i..] == (head + pattern)[i + 1..];
      }
      var after := Replace(rest, pattern, replacement);
      ReplaceLeftmost(head[1..], rest, pattern, replacement);
      assert head + replacement + after == [head[0]] + (head[1..] + replacement + after);
    }
  }

  /**
   Two heads, each breaking off early as `HeadThenOccurrence` needs, each followed
   by an occurrence: removing the pattern leaves the two heads side by side.
   */
  lemma JoinedHeads(pattern: string, a: string, b: string)
    requires |pattern| > |a| + 1 && |a| > 0 && a[0] == pattern[0] && pattern[|a| + 1] != pattern[1]
    requires forall i :: 1 <= i < |a| ==> a[i] != pattern[0]
    requires |pattern| > |b| + 1 && |b| > 0 && b[0] == pattern[0] && pattern[|b| + 1] != pattern[1]
    requires forall i :: 1 <= i < |b| ==> b[i] != pattern[0]
    ensures Replace(a + (pattern + (b + (pattern + ""))), pattern, "") == a + b
  {
    HeadThenOccurrence(pattern, a, b + (pattern + ""));
    HeadThenOccurrence(pattern, b, "");
    assert Replace("", pattern, "") == "";
  }

  /**
   A head free of the pattern's first character, an occurrence, a second head that
   breaks off early as `HeadThenOccurrence` needs, and an occurrence: removing the
   pattern leaves the two heads side by side.
   */
  lemma CopiedThenJoined(pattern: string, a: string, b: string)
    requires |pattern| > 0 && forall i :: 0 <= i < |a| ==> a[i] != pattern[0]
    requires |pattern| > |b| + 1 && |b| > 0 && b[0] == pattern[0] && pattern[|b| + 1] != pattern[1]
    requires forall i :: 1 <= i < |b| ==> b[i] != pattern[0]
    ensures Replace(a + (pattern + (b + (pattern + ""))), pattern, "") == a + b
  {
    var tail := b + (pattern + "");
    var rest := pattern + tail;
    ReplaceCopiesHead(a, rest, pattern, "");
    assert Replace(a + rest, pattern, "") == a + Replace(rest, pattern, "");
    assert rest[..|pattern|] == pattern && rest[|pattern|..] == tail;
    ReplaceHit(rest, pattern, "");
    assert Replace(rest, pattern, "") == Replace(tail, pattern, "");
    HeadThenOccurrence(pattern, b, "");
    assert Replace(tail, pattern, "") == b + Replace("", pattern, "");
    assert Replace("", pattern, "") == "";
  }

  /** Removing a pattern from a text made of a head, the leftmost occurrence and a rest. */
  lemma RemoveLeftmost(s: string, head: string, rest: string, pattern: string)
    requires |pattern| > 0 && s == head + pattern + rest
    requires forall i :: 0 <= i < |head| ==> !StartsWith((head + pattern)[i..], pattern)
    ensures Replace(s, pattern, "") == head + Replace(rest, pattern, "")
  {
    ReplaceLeftmost(head, rest, pattern, "");
    assert head + "" == head;
  }

  /**
   A head that starts like the pattern but breaks off before the next character
   of the pattern, followed by a full occurrence: the head is kept, the occurrence dropped.
   */
  lemma {:induction false} HeadThenOccurrence(pattern: string, head: string, rest: string)
    requires |pattern| > |head| + 1 && |head| > 0 && head[0] == pattern[0] && pattern[|head| + 1] != pattern[1]
    requires forall i :: 1 <= i < |head| ==> head[i] != pattern[0]
    ensures Replace(head + (pattern + rest), pattern, "") == head + Replace(rest, pattern, "")
  {
    var s := head + (pattern + rest);
    assert s[|head| + 1] == pattern[1];
    ReplaceMiss(s, pattern, "", |head| + 1);
    assert s[1..] == head[1..] + (pattern + rest);
    ReplaceCopiesHead(head[1..], pattern + rest, pattern, "");
    var t := pattern + rest;
    assert t[..|pattern|] == pattern && t[|pattern|..] == rest;
    ReplaceHit(t, pattern, "");
    assert head == [head[0]] + head[1..];
  }

  /** The number of occurrences `Replace` rewrites: non-overlapping, leftmost first. */
  function Occurrences(s: string, pattern: string): nat
    requires |pattern| > 0
    decreases |s|
  {
    if |s| < |pattern| then 0
    else if StartsWith(s, pattern) then 1 + Occurrences(s[|pattern|..], pattern)
    else Occurrences(s[1..], pattern)
  }

  /** Each rewritten occurrence changes the length by the difference of the two texts. */
  lemma {:induction false} ReplaceLength(s: string, pattern: string, replacement: string)
    requires |pattern| > 0
    ensures |Replace(s, pattern, replacement)| + |pattern| * Occurrences(s, pattern)
         == |s| + |replacement| * Occurrences(s, pattern)
    decreases |s|
  {
    if |s| < |pattern| {
    } else if StartsWith(s, pattern) {
      var rest := s[|pattern|..];
      ReplaceLength(rest, pattern, replacement);
      var k := Occurrences(rest, pattern);
      assert Occurrences(s, pattern) == 1 + k;
      assert |Replace(s, pattern, replacement)| == |replacement| + |Replace(rest, pattern, replacement)|;
      DistributeOne(|pattern|, k);
      DistributeOne(|replacement|, k);
    } else {
      ReplaceLength(s[1..], pattern, replacement);
    }
  }

  lemma DistributeOne(a: int, k: int)
    ensures a * (1 + k) == a + a * k
  {
  }

  /** A string in which the pattern never occurs comes back unchanged, and only such a string has no rewrite. */
  lemma {:induction false} ReplaceAbsent(s: string, pattern: string, replacement: string)
    requires |pattern| > 0
    ensures !Contains(s, pattern) <==> Occurrences(s, pattern) == 0
    ensures !Contains(s, pattern) ==> Replace(s, pattern, replacement) == s
    decreases |s|
  {
    if |s| < |pattern| {
      NotContainsShort(s, pattern);
    } else if StartsWith(s, pattern) {
    } else {
      ReplaceAbsent(s[1..], pattern, replacement);
    }
  }

  /** A pattern longer than the text cannot occur in it. */
  lemma {:induction false} NotContainsShort(s: string, pattern: string)
    requires |s| < |pattern|
    ensures !Contains(s, pattern)
    decreases |s|
  {
    if |s| > 0 {
      NotContainsShort(s[1..], pattern);
    }
  }

  /** A suffix is an occurrence. */
  lemma {:induction false} EndsWithContains(s: string, suffix: string)
    requires EndsWith(s, suffix)
    ensures Contains(s, suffix)
    decreases |s|
  {
    if |s| > |suffix| {
      assert s[1..][|s[1..]| - |suffix|..] == s[|s| - |suffix|..];
      EndsWithContains(s[1..], suffix);
    } else {
      assert s[..|suffix|] == s;
    }
  }

  /** `string.Join(sep, parts)`: the parts in order with one separator between neighbours. */
  function Join(sep: char, parts: seq<string>): string
    decreases |parts|
  {
    if |parts| == 0 then ""
    else if |parts| == 1 then parts[0]
    else parts[0] + [sep] + Join(sep, parts[1..])
  }

  /** A join of at least one part starts with the first part and ends with the last. */
  lemma {:induction false} JoinEnds(sep: char, parts: seq<string>)
    requires |parts| > 0
    ensures StartsWith(Join(sep, parts), parts[0])
    ensures EndsWith(Join(sep, parts), parts[|parts| - 1])
    decreases |parts|
  {
    if |parts| > 1 {
      var rest := Join(sep, parts[1..]);
      JoinEnds(sep, parts[1..]);
      var r := parts[0] + [sep] + rest;
      assert r[..|parts[0]|] == parts[0];
      assert r[|r| - |parts[|parts| - 1]|..] == rest[|rest| - |parts[|parts| - 1]|..];
    }
  }

  /** The index of the first occurrence of `c` in `s`, if any. */
  function FindChar(s: string, c: char): (r: Option<nat>)
    ensures r.Some? ==> r.value < |s| && s[r.value] == c && c !in s[..r.value]
    ensures r.None? ==> c !in s
  {
    if |s| == 0 then None
    else if s[0] == c then Some(0)
    else match FindChar(s[1..], c)
      case None => None
      case Some(i) =>
        assert s[..i + 1] == [s[0]] + s[1..][..i];
        Some(i + 1)
  }

  /** Splitting at every `sep` (as `string.Split(sep)` does): an empty text yields one empty piece. */
  function Split(s: string, sep: char): (parts: seq<string>)
    ensures |parts| >= 1
    ensures forall i :: 0 <= i < |parts| ==> sep !in parts[i]
    decreases |s|
  {
    match FindChar(s, sep)
    case None => [s]
    case Some(i) => [s[..i]] + Split(s[i + 1..], sep)
  }

  /** The first separator found in a text whose head is separator-free is the one right after the head. */
  lemma FindCharAfter(a: string, c: char, b: string)
    requires c !in a
    ensures FindChar(a + [c] + b, c) == Some(|a|)
  {
    assert (a + [c] + b)[|a|] == c;
  }

  /** `Split` undoes `Join` whenever no part contains the separator. */
  lemma {:induction false} SplitJoin(sep: char, parts: seq<string>)
    requires |parts| >= 1
    requires forall i :: 0 <= i < |parts| ==> sep !in parts[i]
    ensures Split(Join(sep, parts), sep) == parts
    decreases |parts|
  {
    if |parts| == 1 {
      assert FindChar(parts[0], sep).None?;
    } else {
      var rest := Join(sep, parts[1..]);
      var s := parts[0] + [sep] + rest;
      assert Join(sep, parts) == s;
      FindCharAfter(parts[0], sep, rest);
      assert s[..|parts[0]|] == parts[0];
      assert s[|parts[0]| + 1..] == rest;
      SplitJoin(sep, parts[1..]);
      assert parts == [parts[0]] + parts[1..];
    }
  }
}
